=== FILE: README.md ===
# Trợ Lý Kho — inventory lookup, modelled in Dafny

The project models the warehouse assistant's lookup pipeline. The assistant works on a
spreadsheet export with "merged cells": a product's name, code and row number appear only
on its first row. Each following row is one physical unit with its own serial.

The model covers five parts:

- **the normaliser** (`load_data` after the CSV is read): forward-fills `STT`,
  `Mã hàng hóa` and `Tên hàng hóa`, drops rows without a `Từ serial`, and strips the
  serial and `NHÂN VIÊN NHẬN` texts. A failed download gives an empty table.
- **the query cascade** (`search_inventory`): exact serial; then a multi-token search,
  AND over tokens and OR over fields; then name, code, holder and unit substrings; then a
  partial serial. The first stage that finds a row decides the answer.
- **the status badge** and **the results-table columns** of `ui_components.py`.
- **the sidebar's status column and good-item count**, also in `ui_components.py`.
- **the chat turn** of `app.py`: the greeting, help or search router, and the reply it records.

A table is a sequence of column names plus a sequence of rows (`Frame`). A row keeps its
pandas index label and maps column names to cells. A blank cell (NaN) is `None`.

The modules are:

- `Text`: Python's `lower`, `strip`, `split`, `in`, `join` and `str(int)`.
- `Frame`: the table, boolean-mask selection (`Filter`) and subsequences.
- `Loader`: `load_data`.
- `SearchEngine`: `search_inventory`.
- `SearchProperties`: what a search over a loaded table does.
- `Sorting`: stable `sorted` by key and `list.remove`.
- `UiComponents`: the pure parts of `ui_components.py`.
- `App`: the chat turn.

The download itself, `@st.cache_data` and every Streamlit call are outside the model. The
fetched CSV is a parameter `Result<Csv, string>`, where a failure stands for any
exception of `read_csv`.

## Model

| member | source | states |
|---|---|---|
| Text.StripMeaning | utils/search_engine.py:9-12 | `strip` keeps the slice between a blank prefix and a blank suffix; the slice starts and ends with a non-blank character; the result is empty exactly when the text is all whitespace |
| Text.StripIdempotent | utils/data_loader.py:31 | stripping a stripped text changes nothing |
| Text.SplitMeaning | utils/search_engine.py:51 | `split()` yields non-empty tokens without whitespace; they spell out exactly the non-blank characters; there are none exactly when the text is blank |
| Text.SplitRuns | utils/search_engine.py:51 | `split()` takes whole runs: blank text gives no token, and leading whitespace, a word, then nothing or whitespace-led text give that word followed by the split of the rest; every string is blank or of that shape, so this fixes the tokens and their number |
| Text.NatToStringRoundTrip | utils/search_engine.py:80 | the count in a message is the decimal form of the number: it reads back as the number and has no leading zero |
| Frame.Filter | utils/search_engine.py:16 | `df[mask]` keeps the elements the mask accepts and only those, as a subsequence in table order (multiplicities in `FilterMultiset`) |
| Frame.FilterMultiset | utils/search_engine.py:16 | a mask selection keeps every copy of an accepted element and no copy of a rejected one: as a multiset it is the input restricted to the accepted elements |
| Loader.NearestAboveMeaning | utils/data_loader.py:20 | the forward-fill value is blank exactly when every cell at or above is blank (leading blanks stay missing); otherwise it is the cell of the nearest non-blank row above, with only blanks in between |
| Loader.FillColumn | utils/data_loader.py:20 | `ffill` of one column gives every row the nearest non-blank value at or above it and leaves the rest of the row alone |
| Loader.FillColumns | utils/data_loader.py:18-20 | filling several distinct columns fills each of them, keeps the index, and leaves every other column present or absent as before |
| Loader.PresentFillCols | utils/data_loader.py:15-18 | the columns filled are exactly those of `STT`, `Mã hàng hóa`, `Tên hàng hóa` that the table has |
| Loader.ForwardFill | utils/data_loader.py:15-20 | each present fill column holds the nearest non-blank value at or above; other columns, labels and row order are unchanged |
| Loader.ForwardFillIdempotent | utils/data_loader.py:20 | filling an already filled table changes nothing |
| Loader.Normalize | utils/data_loader.py:15-37 | columns are kept; with a serial column the rows kept are those of the forward-filled table whose serial is not blank, in order and with their labels, and each holds a serial value; without one the result is the forward-filled table, so no row is dropped and the labels are unchanged |
| Loader.Load | utils/data_loader.py:6-41 | a failed download gives the empty table, never a partial one; a successful one keeps the CSV's columns |
| Loader.LoadKeepsSerialRows | utils/data_loader.py:24-28 | with a serial column, the loaded rows are exactly the records with a serial, in order; their labels are those records' positions |
| Loader.FilledRowCells | utils/data_loader.py:15-20 | after the fill, row l keeps label l; each present fill column holds the nearest non-blank value at or above it; every other cell is record l's |
| Loader.LoadRowContents | utils/data_loader.py:24-33 | each loaded row comes from a record with a serial; its serial is that record's serial stripped (a blank-only serial survives as ""); its holder is stripped when the column exists |
| Loader.LoadRowFilled | utils/data_loader.py:15-33 | in each loaded row every fill column holds the nearest non-blank value at or above its record, and every cell the loader does not touch is the record's |
| Loader.LoadRowOrigin | utils/data_loader.py:28-33 | loaded row k is the cleaned filled row that its label names, and that row has a serial |
| Loader.CleanRowCells | utils/data_loader.py:31-33 | cleaning sets the serial (and the holder, when present) to the stripped text and keeps every other cell and the label |
| Loader.NormalizedIsFilled | utils/data_loader.py:20-33 | a normalised table is already forward-filled |
| Loader.NormalizeIdempotent | utils/data_loader.py:15-37 | normalising a normalised table returns it unchanged |
| SearchEngine.Select | utils/search_engine.py:16 | a mask selection keeps the columns and exactly the accepted rows, as a subsequence |
| SearchEngine.SelectMultiset | utils/search_engine.py:16 | a selection of table rows keeps every copy of an accepted row and none of a rejected one |
| SearchEngine.ExactSerialMatches | utils/search_engine.py:16 | the exact stage returns exactly the rows whose serial equals the query up to case, in order |
| SearchEngine.CombinedMatches | utils/search_engine.py:54-78 | the combined stage, aligned to the table's rows, keeps a row iff every token occurs in one of its searched fields |
| SearchEngine.CombinedMatchesAsWritten | utils/search_engine.py:54-78 | the combined stage as the code aligns it keeps a row iff its label is below the row count and every token hits it |
| SearchEngine.NameMatches | utils/search_engine.py:22 | the name stage returns exactly the rows whose name contains the query, ignoring case |
| SearchEngine.OptionalMatches | utils/search_engine.py:25-32 | a holder or code stage on a table without that column is empty, not an error; otherwise it returns exactly the containing rows |
| SearchEngine.SameValuesMeaning | utils/search_engine.py:44 | two rows are duplicates for `drop_duplicates` iff they agree on every column of the table |
| SearchEngine.DropDuplicates | utils/search_engine.py:44 | `drop_duplicates` keeps, in input order, exactly the rows no earlier row equals in value (`FirstsOf`); so no two kept rows are equal and every input row has an equal row kept |
| SearchEngine.DistrictHits | utils/search_engine.py:36-41 | the `QUẬN/HUYỆN` matches are exactly the table's rows whose district contains the query, in table order, and none without that column |
| SearchEngine.WarehouseHits | utils/search_engine.py:36-41 | the `LOẠI KHO` matches are exactly the table's rows whose warehouse type contains the query, in table order, and none without that column |
| SearchEngine.UnitHitsMultiset | utils/search_engine.py:36-41 | each unit column selection keeps every copy of a matching row and no copy of any other row |
| SearchEngine.UnitMatches | utils/search_engine.py:35-44 | the unit stage is the district matches followed by the warehouse matches, keeping in that order exactly the rows no earlier candidate equals in value; it is empty iff neither column matches; every row is a unit hit of the table and every unit hit has an equal row returned |
| SearchEngine.UnitCoverage | utils/search_engine.py:36-44 | the district and warehouse matches together are exactly the unit hits of the table |
| SearchEngine.SerialPartMatches | utils/search_engine.py:47 | the partial-serial stage returns exactly the rows whose serial contains the query |
| SearchEngine.Unique | utils/search_engine.py:96 | `unique()` keeps each value once, in an order taken from the input, and keeps every value |
| SearchEngine.Take | utils/search_engine.py:97 | slicing `[:n]` (here `[:3]`) gives a prefix: exactly n elements when there are enough, the whole list when there are fewer |
| SearchEngine.StageRows | utils/search_engine.py:16-78 | each stage returns only input rows that are hits of that stage; every stage but the unit one returns every hit; the unit stage returns every hit's values |
| SearchEngine.StageMessage | utils/search_engine.py:85-101 | every stage message is non-empty |
| SearchEngine.Search | utils/search_engine.py:4-110 | an empty table or blank query gives no rows and "Chưa có dữ liệu tìm kiếm."; it fails only with a `KeyError` the cascade raises; when no stage finds a row the answer is no rows with the guidance message; otherwise the answer holds every row of the stage `Decide` chooses; every answer has a non-empty message; answer rows come from the input with its columns |
| SearchEngine.Decide | utils/search_engine.py:12-101 | the `KeyError` arises iff the serial column is missing, or the name column is missing and no serial matched exactly; a chosen stage has rows; the combined stage is chosen only for several tokens |
| SearchEngine.Cascade | utils/search_engine.py:49-101 | exact serial first; the combined stage second iff the query has more than one token; then name, code, holder, unit, partial serial last, with no other stage |
| SearchEngine.Pick | utils/search_engine.py:54-101 | the stage picked after the exact one finds a row and is never the exact stage; the combined stage is picked only for several tokens |
| SearchEngine.FirstWhere | utils/search_engine.py:85-101 | the position found holds a stage that finds rows and every earlier stage finds none; no position means no stage finds a row |
| SearchEngine.DecideFollowsCascade | utils/search_engine.py:79-101 | the stage that answers is the first of the cascade that finds a row, and there is none exactly when no stage finds one |
| SearchEngine.PickIsFirst | utils/search_engine.py:54-101 | when the exact stage finds nothing, `Pick` chooses the first later stage of the cascade that finds a row, and nothing exactly when none does |
| SearchEngine.FirstWhereAt | utils/search_engine.py:85-101 | a position with no match before it and a match at it is the one found; with no match anywhere none is found |
| SearchEngine.ExactSerialAnswers | utils/search_engine.py:16-18 | when a row's serial equals the query, the answer is exactly the exact-stage rows in order, whatever later stages would find |
| SearchEngine.AnswerRowsAreHits | utils/search_engine.py:16-101 | every row of an answer is a hit of the stage that gave it |
| SearchProperties.LoadedSerialFound | utils/search_engine.py:12-18 | searching for the serial of any loaded row finds that row through the exact stage |
| SearchProperties.CombinedAsWrittenOnFreshIndex | utils/search_engine.py:54-78 | on a table with a fresh 0..n-1 index, the code's combined stage equals the aligned one |
| SearchProperties.LoadWithAllSerialsIsFresh | utils/data_loader.py:28 | when every record has a serial, nothing is dropped, the index stays fresh, and the combined stage loses no row |
| SearchProperties.GappedLoad | utils/data_loader.py:20-33 | loading the example download gives one row, labelled 1, with serial "SN1", the name filled down from the row above, and holder "Van" |
| SearchProperties.CombinedAsWrittenLosesLoadedRow | utils/search_engine.py:54-78 | on that loaded table, the aligned combined stage finds the row for a query split into "Switch" and "Van"; the code's stage finds nothing |
| Sorting.Insert | utils/ui_components.py:219 | one insertion step adds exactly the one element |
| Sorting.InsertSorted | utils/ui_components.py:219 | inserting into a sorted list keeps it sorted |
| Sorting.SortBy | utils/ui_components.py:219 | the sort is a permutation of its input and is ordered by the key |
| Sorting.SortStable | utils/ui_components.py:219 | the sort is stable: the elements of each key come out in their input order |
| Sorting.InsertClass | utils/ui_components.py:219 | inserting adds the element to the end of its own key's class and leaves other classes alone |
| Sorting.SubsequenceSorted | utils/ui_components.py:223 | removing elements from a sorted list keeps it sorted |
| Sorting.RemoveFirst | utils/ui_components.py:223 | `list.remove` takes away one occurrence of the element and keeps the order of the rest |
| Sorting.RemoveFirstMeaning | utils/ui_components.py:223 | `list.remove(x)` takes out the first occurrence of `x`, joining what comes before and after it; a list without `x` is returned unchanged |
| Sorting.RemoveClass | utils/ui_components.py:222-223 | removing an element changes no key class but its own |
| UiComponents.GetStatusBadge | utils/ui_components.py:145-154 | the badge is one of `badge-success`, `badge-danger`, `badge-warning`, `badge-neutral` |
| UiComponents.BadgeMeaning | utils/ui_components.py:147-154 | a success word wins even next to a damage word; danger needs no success word; warning needs neither; neutral is left for a status with none |
| UiComponents.ExistingCols | utils/ui_components.py:212-214 | the candidate columns are exactly the table's display columns, in table order |
| UiComponents.Rank | utils/ui_components.py:217-219 | a priority column sorts by its place in the priority list; any other column sorts at 999 |
| UiComponents.TableColumns | utils/ui_components.py:212-223 | the shown columns are a subsequence of the sorted candidates |
| UiComponents.TableColumnsOrder | utils/ui_components.py:217-223 | shown columns are in priority order; every priority column precedes every other column (such as `Mã hàng hóa`); equal-priority columns keep the table's order |
| UiComponents.TableColumnsMembers | utils/ui_components.py:212-223 | with distinct column names, the shown columns are exactly the display columns present, minus `Trạng Thái Chuẩn` iff `Trạng thái` is present; each is shown once |
| UiComponents.StatusColumn | utils/ui_components.py:244 | the status column is `Trạng thái` iff the table has it, else `Trạng Thái Chuẩn` |
| UiComponents.SidebarStats | utils/ui_components.py:234-254 | an empty table shows nothing; otherwise the total is the row count; a good count exists iff a status column exists, and it is never above the total |
| UiComponents.GoodIsSuccessBadge | utils/ui_components.py:250-252 | a status counts as good iff it gets the success badge |
| UiComponents.GoodCountMeaning | utils/ui_components.py:250-254 | the good count is the number of rows with a success badge; it equals the total iff every row has one |
| App.RouteMeaning | app.py:72-87 | a greeting word anywhere in the lower-cased, stripped prompt makes it a greeting; help needs a help word and no greeting word; a lookup has neither |
| App.Respond | app.py:76-98 | greeting and help replies carry their fixed text and no rows; an error comes only from a lookup's search; a reply is never empty; rows are kept only for a lookup, never empty, and come from the table |
| App.NoSearchUnlessLookup | app.py:79-89 | a greeting or help prompt gets the same reply whatever the table holds, so no search runs |
| App.LookupReply | app.py:89-98 | a lookup that found rows records the message, a count line with their number, and the rows; otherwise it records the message alone and no rows |
| App.HisenseIsGreeting | app.py:73-80 | the prompt "hisense" is answered with the greeting, because it contains "hi" |
| App.ChatTurn | app.py:43-98 | an empty table shows the load error and answers no prompt; otherwise the prompt gets its reply, or the search's `KeyError` ends the turn |
| App.ShownColumns | app.py:54-56 | the columns shown under a reply are the fixed display columns the results have, in display order |

## Left out

- The download (`pd.read_csv` over the network) and `@st.cache_data(ttl=600)` are outside the model. They are I/O and wall-clock behaviour. The fetched data is a `Result` parameter.
- Streamlit rendering is outside the model: markdown, dataframes, metrics, CSS, `render_asset_card`'s HTML and the chat session state. `render_sidebar_stats`' `f"{n:,}"` formatting is display only.
- `safe_debug.py` and `debug_data.py` are ad-hoc scripts. They are not part of this model.
- The `thefuzz` import is never called.
- `str.contains` treats the query as a regular expression. The model uses literal substring search, so metacharacters in a query are not modelled. A malformed pattern's `re.error` is not modelled either.
- The `.str` accessor raises `AttributeError` on a column pandas reads as numbers: a numeric `Mã hàng hóa` column, or a column with no value at all (an all-blank `Tên hàng hóa` or `Trạng thái` reads as float64). The model has only text and blank cells, so it searches such a column like any other where the program crashes.
- A serial column pandas reads as numbers (float64, since blank serials are NaN) becomes text such as `21200123.0` after `astype(str)` in `load_data`. Numeric cells and their decimal rendering are not modelled; every serial is the text of the downloaded cell.
- `Text.Lower`: maps only ASCII, Latin-1, Latin Extended-A up to U+012F, Ũ, Ơ, Ư and the Vietnamese block U+1EA0..U+1EF9. Other case pairs and decomposed (NFD) Vietnamese text are left as they are.
- `SearchEngine.Unique`: states distinct values, each input value kept, and input order. It does not state that the order is the order of first appearance.
- `SearchEngine.StageMessage`: states only that the message is non-empty. The texts themselves appear in its body.
- `UiComponents.TableColumnsMembers`: requires distinct column names. `read_csv` always produces distinct names, and `list.remove` would leave a second copy otherwise.
- Where the code does something a reader might not expect, the model follows the code:
  - Column names are not trimmed.
  - Only `STT`, `Mã hàng hóa` and `Tên hàng hóa` are forward-filled, not holder, status or region.
  - Rows are dropped for a missing serial before stripping, so a blank-only serial survives as `""`.
  - The unit stage removes duplicates by equal values, not by row identity.
  - A missing `Từ serial` column, or a missing `Tên hàng hóa` column once no serial matched exactly, raises pandas' `KeyError`. The model returns it as `Failure(KeyError(column))` and the chat turn as `Crashed`.

## Findings

| source | as written | input that shows it | evidently intended | confidence | as-written member | corrected member |
|---|---|---|---|---|---|---|
| utils/search_engine.py:54-78 | `full_mask` is built on a fresh index 0..n-1 and combined with `&`, which aligns on index labels. A row whose label is not below the row count meets a missing entry, read as false. | The download `SearchProperties.GappedCsv` has record 0 with no serial but the name "Switch", and record 1 with serial "SN1" and holder "Van". `dropna` (utils/data_loader.py:28) leaves one row, labelled 1. The query "Switch Van" is then searched. | The row whose fields contain every token is returned by the combined stage. | medium, not executed | SearchEngine.CombinedMatchesAsWritten, exhibited by SearchProperties.CombinedAsWrittenLosesLoadedRow | SearchEngine.CombinedMatches, used by SearchEngine.Search |

=== FILE: app.dfy ===
/**
 * The chat turn of app.py: the intent router that answers greetings and help requests
 * itself and hands every other prompt to the search, and the reply it records.
 */
module App {
  import opened Wrappers
  import opened Text
  import opened Frame
  import opened SearchEngine

  /** What a prompt asks for. */
  datatype Intent = Greeting | Help | Lookup

  const Greetings := ["xin chào", "hello", "hi", "chào"]
  const HelpWords := ["hướng dẫn", "help", "cách dùng"]

  const GreetingText := "Chào bạn! Tôi là Trợ lý Kho AI. Hãy nhập Serial, Tên hàng hóa, hoặc Tên nhân viên để tôi tìm kiếm giúp bạn nhé."
  const HelpText := "**Hướng dẫn sử dụng:**\n1. **Tìm theo Serial:** Nhập chính xác số Serial (ví dụ: `CN12345`).\n2. **Tìm theo Tên hàng:** Nhập tên sản phẩm (ví dụ: `Camera`, `Switch`).\n3. **Tìm theo Nhân viên:** Nhập tên nhân viên để xem tài sản họ đang giữ.\n"
  const LoadErrorText := "Không thể tải dữ liệu. Vui lòng kiểm tra đường link."

  /** `prompt.lower().strip()`: the text the intent is decided on. */
  function CleanPrompt(prompt: string): string {
    Strip(Lower(prompt))
  }

  /** The intent of a prompt: a greeting word anywhere, else a help word, else a lookup. */
  function Route(prompt: string): Intent {
    var p := CleanPrompt(prompt);
    if Contains(p, "xin chào") || Contains(p, "hello") || Contains(p, "hi") || Contains(p, "chào") then Greeting
    else if Contains(p, "hướng dẫn") || Contains(p, "help") || Contains(p, "cách dùng") then Help
    else Lookup
  }

  /**
   * Greeting wins over help whenever both kinds of word occur, even when the greeting
   * is only part of a word (as "hi" is of "hisense" or "chip"); a lookup is a prompt
   * that mentions neither.
   */
  lemma RouteMeaning(prompt: string)
    ensures var p := CleanPrompt(prompt);
      && (Route(prompt) == Greeting <==> MentionsAny(p, Greetings))
      && (Route(prompt) == Help <==> !MentionsAny(p, Greetings) && MentionsAny(p, HelpWords))
      && (Route(prompt) == Lookup <==> !MentionsAny(p, Greetings) && !MentionsAny(p, HelpWords))
  {
    var p := CleanPrompt(prompt);
    assert MentionsAny(p, Greetings) <==>
      Contains(p, "xin chào") || Contains(p, "hello") || Contains(p, "hi") || Contains(p, "chào")
    by {
      if Contains(p, "xin chào") { assert Contains(p, Greetings[0]); }
      if Contains(p, "hello") { assert Contains(p, Greetings[1]); }
      if Contains(p, "hi") { assert Contains(p, Greetings[2]); }
      if Contains(p, "chào") { assert Contains(p, Greetings[3]); }
    }
    assert MentionsAny(p, HelpWords) <==> Contains(p, "hướng dẫn") || Contains(p, "help") || Contains(p, "cách dùng") by {
      if Contains(p, "hướng dẫn") { assert Contains(p, HelpWords[0]); }
      if Contains(p, "help") { assert Contains(p, HelpWords[1]); }
      if Contains(p, "cách dùng") { assert Contains(p, HelpWords[2]); }
    }
  }

  /** The assistant's entry in the chat history: its text and the rows shown with it. */
  datatype Reply = Reply(text: string, results: Option<Table>)

  /** The line appended to a search message that found rows. */
  function CountLine(n: nat): string {
    "\n\nTìm thấy **" + NatToString(n) + "** kết quả."
  }

  /**
   * The assistant's reply to `prompt` over the loaded table `df`: the fixed greeting or
   * help text without rows, or the search's message, followed by the count line and
   * the rows when it found any. A search error (pandas' `KeyError`) propagates.
   */
  function Respond(prompt: string, df: Table): (r: Result<Reply, SearchError>)
    ensures Route(prompt) == Greeting ==> r == Success(Reply(GreetingText, None))
    ensures Route(prompt) == Help ==> r == Success(Reply(HelpText, None))
    ensures r.Failure? ==> Route(prompt) == Lookup && Search(prompt, df).Failure?
    ensures r.Success? ==> |r.value.text| > 0
    ensures r.Success? && r.value.results.Some? ==>
      && Route(prompt) == Lookup
      && r.value.results.value.rows != []
      && forall x :: x in r.value.results.value.rows ==> x in df.rows
  {
    match Route(prompt)
    case Greeting => Success(Reply(GreetingText, None))
    case Help => Success(Reply(HelpText, None))
    case Lookup =>
      match Search(prompt, df)
      case Failure(e) => Failure(e)
      case Success(Answer(results, message)) =>
        if !IsEmpty(results) then Success(Reply(message + CountLine(|results.rows|), Some(results)))
        else Success(Reply(message, None))
  }

  /**
   * A greeting or help prompt never reaches the search: its reply is the same whatever
   * the table holds.
   */
  lemma NoSearchUnlessLookup(prompt: string, df: Table, other: Table)
    requires Route(prompt) != Lookup
    ensures Respond(prompt, df) == Respond(prompt, other)
  {
  }

  /**
   * On a lookup over a loaded table, the reply records the search's rows exactly when
   * there are any, with the message and a count line equal to their number; otherwise
   * it is the search message alone.
   */
  lemma LookupReply(prompt: string, df: Table)
    requires !IsEmpty(df) && Route(prompt) == Lookup && Search(prompt, df).Success?
    ensures var a := Search(prompt, df).value; var r := Respond(prompt, df);
      && r.Success?
      && (a.matches.rows != [] ==>
            r.value == Reply(a.message + CountLine(|a.matches.rows|), Some(a.matches)))
      && (a.matches.rows == [] ==> r.value == Reply(a.message, None))
  {
    var a := Search(prompt, df).value;
    if a.matches.rows != [] {
      assert a.matches.columns == df.columns;
    }
  }

  /** "Hisense" is routed as a greeting, because it contains "hi". */
  lemma HisenseIsGreeting(prompt: string, df: Table)
    requires CleanPrompt(prompt) == "hisense"
    ensures Route(prompt) == Greeting
    ensures Respond(prompt, df) == Success(Reply(GreetingText, None))
  {
    assert "hi" <= "hisense";
  }

  /** What one chat turn shows: the load error, or the assistant's reply. */
  datatype Turn = LoadFailed(message: string) | Answered(reply: Reply) | Crashed(error: SearchError)

  /**
   * A chat turn: an empty table shows the load error and takes no prompt; otherwise
   * the prompt is answered.
   */
  function ChatTurn(prompt: string, df: Table): (r: Turn)
    ensures IsEmpty(df) <==> r == LoadFailed(LoadErrorText)
    ensures !IsEmpty(df) && Respond(prompt, df).Success? ==> r == Answered(Respond(prompt, df).value)
    ensures !IsEmpty(df) && Respond(prompt, df).Failure? ==> r == Crashed(Respond(prompt, df).error)
  {
    if IsEmpty(df) then LoadFailed(LoadErrorText)
    else
      match Respond(prompt, df)
      case Success(reply) => Answered(reply)
      case Failure(e) => Crashed(e)
  }

  /** The columns shown under a reply. */
  const ShownCols := [NameCol, SerialCol, HolderCol, StatusCol, DistrictCol]

  /** `final_cols` of the chat view: the shown columns the results have, in that order. */
  function ShownColumns(results: Table): (r: seq<string>)
    ensures Subsequence(r, ShownCols)
    ensures forall c :: c in r <==> c in ShownCols && c in results.columns
  {
    Filter(ShownCols, c => c in results.columns)
  }
}

=== FILE: data_loader.dfy ===
/**
 * The merged-cell normaliser of `load_data` (utils/data_loader.py): once the CSV has
 * been read, the product columns are forward-filled, rows without a serial are dropped
 * and the serial and holder texts are stripped. A failed download yields an empty table.
 */
module Loader {
  import opened Wrappers
  import opened Text
  import opened Frame

  /** What `pd.read_csv` hands over: the header and one record per data line. */
  datatype Csv = Csv(columns: seq<string>, records: seq<map<string, Cell>>)

  /** The DataFrame `read_csv` builds: record `k` becomes the row with index label `k`. */
  function ReadIndex(csv: Csv): (t: Table)
    ensures t.columns == csv.columns && |t.rows| == |csv.records|
    ensures forall k :: 0 <= k < |t.rows| ==> t.rows[k] == Row(k, csv.records[k])
  {
    Table(csv.columns, seq(|csv.records|, k requires 0 <= k < |csv.records| => Row(k, csv.records[k])))
  }

  /** The columns that carry a product's data on its first row only. */
  const FillCols := [SttCol, CodeCol, NameCol]

  /** The serial and holder columns are not forward-filled. */
  lemma SerialAndHolderNotFilled()
    ensures SerialCol !in FillCols && HolderCol !in FillCols
  {
    assert SerialCol[0] == 'T' && HolderCol[0] == 'N';
    assert SttCol[0] == 'S' && CodeCol[0] == 'M' && NameCol[1] == 'ê' && SerialCol[1] == 'ừ';
  }

  /**
   * Reference meaning of a forward fill: the nearest non-blank value of `col` at or
   * above position `i`, or blank when every cell up to `i` is blank.
   */
  function NearestAbove(rows: seq<Row>, col: string, i: nat): Cell
    requires i < |rows|
  {
    if Get(rows[i], col).Some? then Get(rows[i], col)
    else if i == 0 then None
    else NearestAbove(rows, col, i - 1)
  }

  /**
   * What the nearest value above is: blank exactly when every cell up to `i` is blank
   * (leading blanks stay missing), and otherwise the cell of some row `j <= i` below
   * which, down to `i`, every cell is blank.
   */
  lemma {:induction false} NearestAboveMeaning(rows: seq<Row>, col: string, i: nat)
    requires i < |rows|
    ensures NearestAbove(rows, col, i).None? <==> forall j :: 0 <= j <= i ==> Get(rows[j], col).None?
    ensures NearestAbove(rows, col, i).Some? ==>
      (exists j :: 0 <= j <= i && Get(rows[j], col) == NearestAbove(rows, col, i)
        && (forall m :: j < m <= i ==> Get(rows[m], col).None?))
  {
    if Get(rows[i], col).None? && i > 0 {
      NearestAboveMeaning(rows, col, i - 1);
      if NearestAbove(rows, col, i).Some? {
        var j :| 0 <= j <= i - 1 && Get(rows[j], col) == NearestAbove(rows, col, i - 1)
          && (forall m :: j < m <= i - 1 ==> Get(rows[m], col).None?);
        assert forall m :: j < m <= i ==> Get(rows[m], col).None?;
      }
    }
  }

  /** Looking from the second row on, then falling back to the first row's cell. */
  lemma {:induction false} NearestAboveShift(rows: seq<Row>, col: string, i: nat)
    requires 0 < i < |rows|
    ensures NearestAbove(rows, col, i) == NearestAbove(rows[1..], col, i - 1).OrElse(Get(rows[0], col))
  {
    if Get(rows[i], col).None? && i > 1 {
      NearestAboveShift(rows, col, i - 1);
    }
  }

  /** Two row sequences that agree on column `col` up to `i` have the same nearest value there. */
  lemma {:induction false} NearestAboveAgree(a: seq<Row>, b: seq<Row>, col: string, i: nat)
    requires i < |a| && i < |b|
    requires forall j :: 0 <= j <= i ==> Get(a[j], col) == Get(b[j], col)
    ensures NearestAbove(a, col, i) == NearestAbove(b, col, i)
  {
    if i > 0 {
      NearestAboveAgree(a, b, col, i - 1);
    }
  }

  /** The row `FillColumn` makes of `row` when the fill value is `v`. */
  function Filled(row: Row, col: string, v: Cell): Row {
    Row(row.index, row.cells[col := v])
  }

  /** One step of `FillColumn`: the first row takes its own cell or the carry. */
  lemma FillColumnStep(rows: seq<Row>, col: string, carry: Cell, rest: seq<Row>)
    requires |rows| > 0
    requires |rest| == |rows| - 1
    requires forall k :: 0 <= k < |rest| ==>
      rest[k] == Filled(rows[1..][k], col, NearestAbove(rows[1..], col, k).OrElse(Get(rows[0], col).OrElse(carry)))
    ensures forall k :: 0 <= k < |rows| ==>
      ([Filled(rows[0], col, Get(rows[0], col).OrElse(carry))] + rest)[k]
        == Filled(rows[k], col, NearestAbove(rows, col, k).OrElse(carry))
  {
    var r := [Filled(rows[0], col, Get(rows[0], col).OrElse(carry))] + rest;
    forall k | 0 <= k < |rows|
      ensures r[k] == Filled(rows[k], col, NearestAbove(rows, col, k).OrElse(carry))
    {
      if k > 0 {
        NearestAboveShift(rows, col, k);
        assert r[k] == rest[k - 1];
        assert rows[1..][k - 1] == rows[k];
      }
    }
  }

  /**
   * pandas' `ffill` of one column, scanning downwards with `carry`, the last non-blank
   * value seen so far: every row gets the nearest non-blank value at or above it (or
   * `carry`), and nothing else in the row changes.
   */
  function FillColumn(rows: seq<Row>, col: string, carry: Cell): (r: seq<Row>)
    ensures |r| == |rows|
    ensures forall k :: 0 <= k < |rows| ==>
      r[k] == Filled(rows[k], col, NearestAbove(rows, col, k).OrElse(carry))
  {
    if |rows| == 0 then []
    else
      var v := Get(rows[0], col).OrElse(carry);
      var rest := FillColumn(rows[1..], col, v);
      FillColumnStep(rows, col, carry, rest);
      [Filled(rows[0], col, v)] + rest
  }

  /** Every row of `r` keeps the index label of the same row of `rows`. */
  ghost predicate SameIndex(rows: seq<Row>, r: seq<Row>) {
    |r| == |rows| && forall k :: 0 <= k < |rows| ==> r[k].index == rows[k].index
  }

  /** Column `c` of `r` holds, in every row, the nearest non-blank value of `rows` at or above it. */
  ghost predicate ColumnFilled(rows: seq<Row>, c: string, r: seq<Row>) {
    |r| == |rows| && forall k :: 0 <= k < |rows| ==> c in r[k].cells && Get(r[k], c) == NearestAbove(rows, c, k)
  }

  /** Column `c` of `r` is column `c` of `rows`, present or absent alike. */
  ghost predicate ColumnKept(rows: seq<Row>, c: string, r: seq<Row>) {
    |r| == |rows| && forall k :: 0 <= k < |rows| ==>
      Get(r[k], c) == Get(rows[k], c) && (c in r[k].cells <==> c in rows[k].cells)
  }

  /** What filling the columns `cols` promises of `r`, given the unfilled `rows`. */
  ghost predicate FillsColumns(rows: seq<Row>, cols: seq<string>, r: seq<Row>) {
    && SameIndex(rows, r)
    && (forall c :: c in cols ==> ColumnFilled(rows, c, r))
    && (forall c :: c !in cols ==> ColumnKept(rows, c, r))
  }

  /** Filling the first column, then the others, fills them all. */
  lemma FillColumnsStep(rows: seq<Row>, cols: seq<string>, once: seq<Row>, r: seq<Row>)
    requires |cols| > 0 && cols[0] !in cols[1..]
    requires |once| == |rows|
    requires forall k :: 0 <= k < |rows| ==> once[k] == Filled(rows[k], cols[0], NearestAbove(rows, cols[0], k))
    requires FillsColumns(once, cols[1..], r)
    ensures FillsColumns(rows, cols, r)
  {
    forall c | c in cols ensures ColumnFilled(rows, c, r) {
      if c == cols[0] {
        assert ColumnKept(once, c, r);
        forall k | 0 <= k < |rows|
          ensures c in r[k].cells && Get(r[k], c) == NearestAbove(rows, c, k)
        {
          assert once[k] == Filled(rows[k], c, NearestAbove(rows, c, k));
        }
      } else {
        assert c in cols[1..];
        assert ColumnFilled(once, c, r);
        forall k | 0 <= k < |rows| ensures NearestAbove(once, c, k) == NearestAbove(rows, c, k) {
          forall j | 0 <= j <= k ensures Get(once[j], c) == Get(rows[j], c) {
            assert once[j] == Filled(rows[j], cols[0], NearestAbove(rows, cols[0], j));
          }
          NearestAboveAgree(once, rows, c, k);
        }
      }
    }
    forall c | c !in cols ensures ColumnKept(rows, c, r) {
      assert c !in cols[1..];
      assert ColumnKept(once, c, r);
      forall k | 0 <= k < |rows|
        ensures Get(once[k], c) == Get(rows[k], c) && (c in once[k].cells <==> c in rows[k].cells)
      {
        assert once[k] == Filled(rows[k], cols[0], NearestAbove(rows, cols[0], k));
      }
    }
    forall k | 0 <= k < |rows| ensures r[k].index == rows[k].index {
      assert once[k] == Filled(rows[k], cols[0], NearestAbove(rows, cols[0], k));
    }
  }

  /** `df[cols] = df[cols].ffill()` for distinct columns `cols`. */
  function FillColumns(rows: seq<Row>, cols: seq<string>): (r: seq<Row>)
    requires Distinct(cols)
    ensures FillsColumns(rows, cols, r)
    decreases |cols|
  {
    if |cols| == 0 then rows
    else
      var once := FillColumn(rows, cols[0], None);
      DistinctTail(cols);
      var r := FillColumns(once, cols[1..]);
      FillColumnsStep(rows, cols, once, r);
      r
  }

  /** The columns of `FillCols` that the table has, in that order (`existing_cols`). */
  function PresentFillCols(columns: seq<string>): (r: seq<string>)
    ensures Distinct(r)
    ensures forall c :: c in r <==> c in FillCols && c in columns
  {
    var r := Filter(FillCols, c => c in columns);
    SubsequenceOfDistinct(r, FillCols);
    r
  }

  /**
   * The forward fill of `load_data`: each of `STT`, `Mã hàng hóa` and `Tên hàng hóa`
   * that the table has holds, in every row, the nearest non-blank value at or above it;
   * every other column, the index and the row order are untouched.
   */
  function ForwardFill(t: Table): (r: Table)
    ensures r.columns == t.columns && SameIndex(t.rows, r.rows)
    ensures forall c :: c in FillCols && c in t.columns ==> ColumnFilled(t.rows, c, r.rows)
    ensures forall c :: !(c in FillCols && c in t.columns) ==> ColumnKept(t.rows, c, r.rows)
  {
    Table(t.columns, FillColumns(t.rows, PresentFillCols(t.columns)))
  }

  /** A row that still has a serial after the fill (`dropna(subset=['Từ serial'])`). */
  predicate HasSerial(row: Row) {
    Get(row, SerialCol).Some?
  }

  /** `astype(str).str.strip()` of the serial, and of the holder when `stripHolder`. */
  function CleanRow(row: Row, stripHolder: bool): Row {
    var cells := row.cells[SerialCol := Some(Strip(AsStr(Get(row, SerialCol))))];
    Row(row.index, if stripHolder then cells[HolderCol := Some(Strip(AsStr(Get(row, HolderCol))))] else cells)
  }

  /**
   * The body of `load_data` once the CSV is read: forward fill, then, when the table has
   * a serial column, drop the rows without a serial and strip serial and holder.
   * Without a serial column nothing is dropped.
   */
  function Normalize(t: Table): (r: Table)
    ensures r.columns == t.columns
    ensures SerialCol in t.columns ==> forall k :: 0 <= k < |r.rows| ==> HasSerial(r.rows[k])
    ensures SerialCol in t.columns ==> IndexLabels(r.rows) == IndexLabels(Filter(ForwardFill(t).rows, HasSerial))
    ensures SerialCol !in t.columns ==> IndexLabels(r.rows) == IndexLabels(t.rows)
    ensures SerialCol !in t.columns ==> r == ForwardFill(t)
  {
    var filled := ForwardFill(t);
    if SerialCol in t.columns then
      var kept := Filter(filled.rows, HasSerial);
      Table(t.columns, seq(|kept|, k requires 0 <= k < |kept| => CleanRow(kept[k], HolderCol in t.columns)))
    else
      filled
  }

  /**
   * `load_data`: the normalised table of a successful download; on any failure the
   * empty table, never a partial one.
   */
  function Load(fetched: Result<Csv, string>): (r: Table)
    ensures fetched.Failure? ==> r == Empty
    ensures fetched.Success? ==> r.columns == fetched.value.columns
  {
    match fetched
    case Failure(_) => Empty
    case Success(csv) => Normalize(ReadIndex(csv))
  }

  /** Record `l` of the download exists and has a serial. */
  predicate SerialAt(csv: Csv, l: nat) {
    l < |csv.records| && Lookup(csv.records[l], SerialCol).Some?
  }

  function SerialMask(csv: Csv): nat -> bool {
    (l: nat) => SerialAt(csv, l)
  }

  /**
   * When the download has a serial column, the loaded rows are exactly the records with
   * a serial, in their original order: their index labels are the positions of those
   * records, so there are as many rows as records with a serial.
   */
  lemma LoadKeepsSerialRows(csv: Csv)
    requires SerialCol in csv.columns
    ensures IndexLabels(Load(Success(csv)).rows) == Filter(Positions(|csv.records|), SerialMask(csv))
  {
    var raw := ReadIndex(csv);
    var filled := ForwardFill(raw);
    var kept := Filter(filled.rows, HasSerial);
    var out := Load(Success(csv));
    SerialAndHolderNotFilled();
    assert out.rows == seq(|kept|, k requires 0 <= k < |kept| => CleanRow(kept[k], HolderCol in csv.columns));
    assert IndexLabels(out.rows) == IndexLabels(kept);
    assert IndexLabels(filled.rows) == Positions(|csv.records|);
    forall x | x in filled.rows
      ensures HasSerial(x) == SerialMask(csv)(x.index)
    {
      var k :| 0 <= k < |filled.rows| && filled.rows[k] == x;
      assert Get(x, SerialCol) == Get(raw.rows[k], SerialCol);
    }
    FilterIndexLabels(filled.rows, HasSerial, SerialMask(csv));
  }

  /**
   * Each loaded row comes from the record its index names, which has a serial; its
   * serial is that record's serial stripped (a blank-only serial survives as ""), and its
   * holder is stripped when the column exists.
   */
  lemma LoadRowContents(csv: Csv, k: nat)
    requires SerialCol in csv.columns
    requires k < |Load(Success(csv)).rows|
    ensures var row := Load(Success(csv)).rows[k];
      var l := row.index;
      && SerialAt(csv, l)
      && Get(row, SerialCol) == Some(Strip(AsStr(Lookup(csv.records[l], SerialCol))))
      && (HolderCol in csv.columns ==>
            Get(row, HolderCol) == Some(Strip(AsStr(Lookup(csv.records[l], HolderCol)))))
  {
    var l := LoadRowOrigin(csv, k);
    var src := ForwardFill(ReadIndex(csv)).rows[l];
    SerialAndHolderNotFilled();
    FilledRowCells(csv, l);
    CleanRowCells(src, HolderCol in csv.columns);
  }

  /**
   * In each loaded row, every forward-filled column holds the nearest non-blank value at
   * or above its record, and every cell the loader does not touch is the record's.
   */
  lemma LoadRowFilled(csv: Csv, k: nat)
    requires SerialCol in csv.columns
    requires k < |Load(Success(csv)).rows|
    ensures var row := Load(Success(csv)).rows[k];
      var l := row.index;
      && l < |csv.records|
      && (forall c :: c in FillCols && c in csv.columns ==>
            Get(row, c) == NearestAbove(ReadIndex(csv).rows, c, l))
      && (forall c ::
            (c != SerialCol && !(c == HolderCol && HolderCol in csv.columns) && !(c in FillCols && c in csv.columns))
            ==> Get(row, c) == Lookup(csv.records[l], c))
  {
    var l := LoadRowOrigin(csv, k);
    var src := ForwardFill(ReadIndex(csv)).rows[l];
    SerialAndHolderNotFilled();
    FilledRowCells(csv, l);
    CleanRowCells(src, HolderCol in csv.columns);
  }

  /**
   * Row `l` after the fill keeps its label; each present fill column holds the nearest
   * non-blank value at or above it, and every other cell is record `l`'s.
   */
  lemma FilledRowCells(csv: Csv, l: nat)
    requires l < |csv.records|
    ensures var src := ForwardFill(ReadIndex(csv)).rows[l];
      && src.index == l
      && (forall c :: c in FillCols && c in csv.columns ==> Get(src, c) == NearestAbove(ReadIndex(csv).rows, c, l))
      && (forall c :: !(c in FillCols && c in csv.columns) ==> Get(src, c) == Lookup(csv.records[l], c))
  {
    var raw := ReadIndex(csv);
    var src := ForwardFill(raw).rows[l];
    assert raw.rows[l] == Row(l, csv.records[l]);
    forall c | c in FillCols && c in csv.columns
      ensures Get(src, c) == NearestAbove(raw.rows, c, l)
    {
      assert ColumnFilled(raw.rows, c, ForwardFill(raw).rows);
    }
    forall c | !(c in FillCols && c in csv.columns)
      ensures Get(src, c) == Lookup(csv.records[l], c)
    {
      assert ColumnKept(raw.rows, c, ForwardFill(raw).rows);
    }
  }

  /** The loaded row `k` is the cleaned filled row at position `l`, its index label. */
  lemma LoadRowOrigin(csv: Csv, k: nat) returns (l: nat)
    requires SerialCol in csv.columns
    requires k < |Load(Success(csv)).rows|
    ensures l == Load(Success(csv)).rows[k].index && l < |csv.records|
    ensures Load(Success(csv)).rows[k] == CleanRow(ForwardFill(ReadIndex(csv)).rows[l], HolderCol in csv.columns)
    ensures HasSerial(ForwardFill(ReadIndex(csv)).rows[l])
  {
    var filled := ForwardFill(ReadIndex(csv));
    var kept := Filter(filled.rows, HasSerial);
    assert Load(Success(csv)).rows[k] == CleanRow(kept[k], HolderCol in csv.columns);
    assert kept[k] in kept;
    assert FreshIndex(filled.rows);
    FreshIndexMember(filled.rows, kept[k]);
    l := kept[k].index;
  }

  /** What `CleanRow` does to each cell. */
  lemma CleanRowCells(x: Row, stripHolder: bool)
    ensures CleanRow(x, stripHolder).index == x.index
    ensures Get(CleanRow(x, stripHolder), SerialCol) == Some(Strip(AsStr(Get(x, SerialCol))))
    ensures stripHolder ==> Get(CleanRow(x, stripHolder), HolderCol) == Some(Strip(AsStr(Get(x, HolderCol))))
    ensures forall c :: c != SerialCol && !(c == HolderCol && stripHolder) ==>
      Get(CleanRow(x, stripHolder), c) == Get(x, c) && (c in CleanRow(x, stripHolder).cells <==> c in x.cells)
    ensures SerialCol in CleanRow(x, stripHolder).cells
  {
  }

  /** Cells already holding their own nearest value above: a fill leaves them alone. */
  ghost predicate Settled(rows: seq<Row>, cols: seq<string>) {
    forall c :: c in cols ==> ColumnFilled(rows, c, rows)
  }

  lemma FillSettled(rows: seq<Row>, cols: seq<string>)
    requires Distinct(cols) && Settled(rows, cols)
    ensures FillColumns(rows, cols) == rows
  {
    var r := FillColumns(rows, cols);
    forall k | 0 <= k < |rows| ensures r[k] == rows[k] {
      forall c: string
        ensures (c in r[k].cells <==> c in rows[k].cells) && Get(r[k], c) == Get(rows[k], c)
      {
        if c in cols {
          assert ColumnFilled(rows, c, r) && ColumnFilled(rows, c, rows);
        } else {
          assert ColumnKept(rows, c, r);
        }
      }
      RowExtensionality(r[k], rows[k]);
    }
  }

  /** In a column with no blank below a value, each cell is its own nearest value above. */
  lemma NoBlankSettles(rows: seq<Row>, col: string, i: nat)
    requires i < |rows| && NoBlankAfterValue(rows, col)
    ensures NearestAbove(rows, col, i) == Get(rows[i], col)
  {
    NearestAboveMeaning(rows, col, i);
  }

  /** After the fill, a filled column never turns blank below a value. */
  lemma FilledHasNoBlankAfterValue(t: Table, c: string)
    requires c in FillCols && c in t.columns
    ensures NoBlankAfterValue(ForwardFill(t).rows, c)
  {
    var f := ForwardFill(t);
    forall i, j | 0 <= i < j < |f.rows| && Get(f.rows[i], c).Some?
      ensures Get(f.rows[j], c).Some?
    {
      NearestAboveMeaning(t.rows, c, i);
      NearestAboveMeaning(t.rows, c, j);
    }
  }

  /** Forward-filling an already forward-filled table changes nothing. */
  lemma ForwardFillIdempotent(t: Table)
    ensures ForwardFill(ForwardFill(t)) == ForwardFill(t)
  {
    var f := ForwardFill(t);
    var cols := PresentFillCols(t.columns);
    forall c | c in cols ensures ColumnFilled(f.rows, c, f.rows) {
      FilledHasNoBlankAfterValue(t, c);
      assert ColumnFilled(t.rows, c, f.rows);
      forall k | 0 <= k < |f.rows| ensures NearestAbove(f.rows, c, k) == Get(f.rows[k], c) {
        NoBlankSettles(f.rows, c, k);
      }
    }
    FillSettled(f.rows, cols);
  }

  lemma CleanRowTwice(x: Row, stripHolder: bool)
    ensures CleanRow(CleanRow(x, stripHolder), stripHolder) == CleanRow(x, stripHolder)
  {
    SerialIsNotHolder();
    var once := CleanRow(x, stripHolder);
    var twice := CleanRow(once, stripHolder);
    StripIdempotent(AsStr(Get(x, SerialCol)));
    StripIdempotent(AsStr(Get(x, HolderCol)));
    CleanRowCells(x, stripHolder);
    CleanRowCells(once, stripHolder);
    forall c: string
      ensures (c in twice.cells <==> c in once.cells) && Get(twice, c) == Get(once, c)
    {
      if c == HolderCol && stripHolder {
        assert c in twice.cells && c in once.cells;
      }
    }
    RowExtensionality(twice, once);
  }

  /** The rows of `Normalize` when there is a serial column: the cleaned rows with a serial. */
  lemma NormalizedRows(t: Table)
    requires SerialCol in t.columns
    ensures var kept := Filter(ForwardFill(t).rows, HasSerial);
      && |Normalize(t).rows| == |kept|
      && forall k :: 0 <= k < |kept| ==> Normalize(t).rows[k] == CleanRow(kept[k], HolderCol in t.columns)
  {
  }

  /** Cleaning leaves a column with no blank below a value settled. */
  lemma SettledAfterClean(kept: seq<Row>, m: seq<Row>, c: string, stripHolder: bool)
    requires c != SerialCol && c != HolderCol
    requires |m| == |kept| && forall k :: 0 <= k < |kept| ==> m[k] == CleanRow(kept[k], stripHolder)
    requires NoBlankAfterValue(kept, c)
    requires forall k :: 0 <= k < |kept| ==> c in kept[k].cells
    ensures ColumnFilled(m, c, m)
  {
    forall k | 0 <= k < |m| ensures Get(m[k], c) == Get(kept[k], c) && c in m[k].cells {
      CleanRowCells(kept[k], stripHolder);
    }
    assert NoBlankAfterValue(m, c);
    forall k | 0 <= k < |m| ensures NearestAbove(m, c, k) == Get(m[k], c) {
      NoBlankSettles(m, c, k);
    }
  }

  /** A filled column stays settled once the rows without a serial are dropped and cleaned. */
  lemma KeptSettled(f: seq<Row>, m: seq<Row>, c: string, stripHolder: bool)
    requires c in FillCols
    requires NoBlankAfterValue(f, c) && forall k :: 0 <= k < |f| ==> c in f[k].cells
    requires var kept := Filter(f, HasSerial);
      |m| == |kept| && forall k :: 0 <= k < |kept| ==> m[k] == CleanRow(kept[k], stripHolder)
    ensures ColumnFilled(m, c, m)
  {
    var kept := Filter(f, HasSerial);
    SerialAndHolderNotFilled();
    FilterKeepsNoBlankAfterValue(f, HasSerial, c);
    forall k | 0 <= k < |kept| ensures c in kept[k].cells {
      assert kept[k] in f;
    }
    SettledAfterClean(kept, m, c, stripHolder);
  }

  /** The rows of a normalised table are settled in every filled column. */
  lemma NormalizedIsFilled(t: Table)
    requires SerialCol in t.columns
    ensures ForwardFill(Normalize(t)) == Normalize(t)
  {
    var f := ForwardFill(t);
    NormalizedRows(t);
    var n1 := Normalize(t);
    var m := n1.rows;
    var cols := PresentFillCols(t.columns);
    forall c | c in cols ensures ColumnFilled(m, c, m) {
      FilledHasNoBlankAfterValue(t, c);
      assert ColumnFilled(t.rows, c, f.rows);
      KeptSettled(f.rows, m, c, HolderCol in t.columns);
    }
    FillSettled(m, cols);
    assert ForwardFill(n1) == Table(n1.columns, FillColumns(m, cols));
  }

  /** Normalising an already normalised table returns it unchanged. */
  lemma NormalizeIdempotent(t: Table)
    ensures Normalize(Normalize(t)) == Normalize(t)
  {
    if SerialCol !in t.columns {
      ForwardFillIdempotent(t);
    } else {
      NormalizeIdempotentWithSerial(t);
    }
  }

  /** With a serial column, the second pass keeps every row and cleans nothing anew. */
  lemma NormalizeIdempotentWithSerial(t: Table)
    requires SerialCol in t.columns
    ensures Normalize(Normalize(t)) == Normalize(t)
  {
    var n1 := Normalize(t);
    var hh := HolderCol in t.columns;
    var m := n1.rows;
    NormalizedIsFilled(t);
    FilterAll(m, HasSerial);
    NormalizedRows(t);
    var kept := Filter(ForwardFill(t).rows, HasSerial);
    forall k | 0 <= k < |m| ensures CleanRow(m[k], hh) == m[k] {
      CleanRowTwice(kept[k], hh);
    }
    assert Normalize(n1).rows == m;
  }

}

=== FILE: frame.dfy ===
/**
 * The table model: a pandas DataFrame as a sequence of column names and a sequence of
 * rows. Each row keeps its pandas index label and maps column names to cells; a cell
 * is `None` when the spreadsheet left it blank (pandas reads it as NaN).
 */
module Frame {
  import opened Wrappers

  type Cell = Option<string>

  datatype Row = Row(index: nat, cells: map<string, Cell>)

  datatype Table = Table(columns: seq<string>, rows: seq<Row>)

  /** `pd.DataFrame()`: no columns and no rows. */
  const Empty := Table([], [])

  // The column vocabulary of the inventory export.
  const SttCol := "STT"
  const CodeCol := "Mã hàng hóa"
  const NameCol := "Tên hàng hóa"
  const SerialCol := "Từ serial"
  const HolderCol := "NHÂN VIÊN NHẬN"
  const StatusCol := "Trạng thái"
  const StatusStdCol := "Trạng Thái Chuẩn"
  const DistrictCol := "QUẬN/HUYỆN"
  const WarehouseCol := "LOẠI KHO"
  const QuantityCol := "Số lượng"

  /** The serial and holder columns are different columns. */
  lemma SerialIsNotHolder()
    ensures SerialCol != HolderCol
  {
    assert SerialCol[0] != HolderCol[0];
  }

  /** pandas' `df.empty`: true when either axis has length zero. */
  predicate IsEmpty(t: Table) {
    |t.rows| == 0 || |t.columns| == 0
  }

  /** The cell in column `col` of a record; a column the record lacks reads as blank. */
  function Lookup(cells: map<string, Cell>, col: string): Cell {
    if col in cells then cells[col] else None
  }

  /** The cell of `row` in column `col`. */
  function Get(row: Row, col: string): Cell {
    Lookup(row.cells, col)
  }

  /** Two rows with the same index, the same columns and the same cells are the same row. */
  lemma RowExtensionality(a: Row, b: Row)
    requires a.index == b.index
    requires forall c :: (c in a.cells <==> c in b.cells) && Get(a, c) == Get(b, c)
    ensures a == b
  {
    assert a.cells.Keys == b.cells.Keys;
    forall c | c in a.cells ensures a.cells[c] == b.cells[c] {
      assert Get(a, c) == Get(b, c);
    }
  }

  /** pandas' `astype(str)` on one cell: a blank (NaN) cell becomes the text "nan". */
  function AsStr(c: Cell): string {
    match c
    case None => "nan"
    case Some(s) => s
  }

  predicate Distinct<T(==)>(s: seq<T>) {
    forall i, j :: 0 <= i < j < |s| ==> s[i] != s[j]
  }

  lemma DistinctTail<T>(s: seq<T>)
    requires |s| > 0 && Distinct(s)
    ensures Distinct(s[1..]) && s[0] !in s[1..]
  {
    forall i, j | 0 <= i < j < |s[1..]| ensures s[1..][i] != s[1..][j] {
      assert s[1..][i] == s[i + 1] && s[1..][j] == s[j + 1];
    }
  }

  /** `a` is `b` with some elements left out, the rest in their original order. */
  predicate Subsequence<T(==)>(a: seq<T>, b: seq<T>)
    decreases |b|
  {
    if |a| == 0 then true
    else if |b| == 0 then false
    else if a[0] == b[0] then Subsequence(a[1..], b[1..])
    else Subsequence(a, b[1..])
  }

  lemma {:induction false} SubsequenceMembers<T>(a: seq<T>, b: seq<T>)
    requires Subsequence(a, b)
    ensures forall x :: x in a ==> x in b
    decreases |b|
  {
    if |a| > 0 && |b| > 0 {
      if a[0] == b[0] {
        SubsequenceMembers(a[1..], b[1..]);
        assert forall x :: x in a ==> x == a[0] || x in a[1..];
      } else {
        SubsequenceMembers(a, b[1..]);
      }
    }
  }

  /** Leaving elements out of a sequence without repetitions leaves none. */
  lemma {:induction false} SubsequenceOfDistinct<T>(a: seq<T>, b: seq<T>)
    requires Subsequence(a, b) && Distinct(b)
    ensures Distinct(a)
    decreases |b|
  {
    if |a| > 0 && |b| > 0 {
      DistinctTail(b);
      if a[0] == b[0] {
        SubsequenceOfDistinct(a[1..], b[1..]);
        SubsequenceMembers(a[1..], b[1..]);
        forall i, j | 0 <= i < j < |a| ensures a[i] != a[j] {
          assert a[j] == a[1..][j - 1];
          if i > 0 {
            assert a[i] == a[1..][i - 1];
          }
        }
      } else {
        SubsequenceOfDistinct(a, b[1..]);
      }
    }
  }

  /** Leaving out the first element of a subsequence leaves a subsequence. */
  lemma {:induction false} SubsequenceRest<T>(a: seq<T>, b: seq<T>)
    requires |a| > 0 && Subsequence(a, b)
    ensures Subsequence(a[1..], b)
    decreases |b|, 0
  {
    if |a| > 1 && |b| > 0 {
      if a[0] != b[0] {
        SubsequenceRest(a, b[1..]);
      }
      SubsequenceCons(b[0], a[1..], b[1..]);
      assert [b[0]] + b[1..] == b;
    }
  }

  /** A subsequence of `b` is one of `[y] + b` too. */
  lemma SubsequenceCons<T>(y: T, a: seq<T>, b: seq<T>)
    requires Subsequence(a, b)
    ensures Subsequence(a, [y] + b)
    decreases |b|, 1
  {
    assert ([y] + b)[1..] == b;
    if |a| > 0 && a[0] == y {
      SubsequenceRest(a, b);
    }
  }

  lemma {:induction false} SubsequenceSelf<T>(s: seq<T>)
    ensures Subsequence(s, s)
    decreases |s|
  {
    if |s| > 0 {
      SubsequenceSelf(s[1..]);
    }
  }

  /** A subsequence of `p` is one of `p + [x]` too. */
  lemma {:induction false} SubsequenceAppend<T>(a: seq<T>, p: seq<T>, x: T)
    requires Subsequence(a, p)
    ensures Subsequence(a, p + [x])
    decreases |p|
  {
    if |a| > 0 {
      assert (p + [x])[1..] == p[1..] + [x];
      if a[0] == p[0] {
        SubsequenceAppend(a[1..], p[1..], x);
      } else {
        SubsequenceAppend(a, p[1..], x);
      }
    }
  }

  /** Appending the same element to both keeps a subsequence. */
  lemma {:induction false} SubsequenceExtend<T>(a: seq<T>, p: seq<T>, x: T)
    requires Subsequence(a, p)
    ensures Subsequence(a + [x], p + [x])
    decreases |p|
  {
    if |p| == 0 {
      assert a == [];
      assert [x][1..] == [];
    } else {
      assert (p + [x])[1..] == p[1..] + [x];
      if |a| > 0 && a[0] == p[0] {
        assert (a + [x])[1..] == a[1..] + [x];
        SubsequenceExtend(a[1..], p[1..], x);
      } else {
        SubsequenceExtend(a, p[1..], x);
        if |a| == 0 {
          assert a + [x] == [x];
        }
      }
    }
  }

  /**
   * Boolean-mask selection `s[mask]`: the elements that satisfy `keep`, each one kept,
   * in their original order.
   */
  function Filter<T(==, !new)>(s: seq<T>, keep: T -> bool): (r: seq<T>)
    ensures |r| <= |s|
    ensures forall x :: x in r <==> x in s && keep(x)
    ensures Subsequence(r, s)
  {
    if |s| == 0 then []
    else if keep(s[0]) then
      var rest := Filter(s[1..], keep);
      assert ([s[0]] + rest)[1..] == rest;
      [s[0]] + rest
    else
      var rest := Filter(s[1..], keep);
      assert |rest| > 0 ==> rest[0] in rest && rest[0] != s[0];
      rest
  }

  /** Filtering distributes over concatenation. */
  lemma {:induction false} FilterAppend<T(!new)>(a: seq<T>, b: seq<T>, p: T -> bool)
    ensures Filter(a + b, p) == Filter(a, p) + Filter(b, p)
    decreases |a|
  {
    if |a| == 0 {
      assert a + b == b;
    } else {
      assert (a + b)[1..] == a[1..] + b;
      FilterAppend(a[1..], b, p);
    }
  }

  /** A non-empty sequence is its front followed by its last element. */
  lemma LastSplit<T>(s: seq<T>)
    requires |s| > 0
    ensures s == s[..|s| - 1] + [s[|s| - 1]]
  {
  }

  /** Filtering a sequence extended by one element adds that element when it passes. */
  lemma FilterSnoc<T(!new)>(a: seq<T>, x: T, p: T -> bool)
    ensures Filter(a + [x], p) == Filter(a, p) + (if p(x) then [x] else [])
  {
    FilterAppend(a, [x], p);
    assert [x][1..] == [];
  }

  /** Filtering with two tests that agree on every element gives the same result. */
  lemma {:induction false} FilterCongruent<T(!new)>(s: seq<T>, p: T -> bool, q: T -> bool)
    requires forall x :: x in s ==> p(x) == q(x)
    ensures Filter(s, p) == Filter(s, q)
  {
    if |s| > 0 {
      FilterCongruent(s[1..], p, q);
    }
  }

  /**
   * A selection keeps every copy of an accepted element and no copy of a rejected
   * one: as a multiset, it is the input restricted to what `keep` accepts.
   */
  lemma {:induction false} FilterMultiset<T(!new)>(s: seq<T>, keep: T -> bool)
    ensures forall x :: multiset(Filter(s, keep))[x] == if keep(x) then multiset(s)[x] else 0
  {
    if |s| > 0 {
      FilterMultiset(s[1..], keep);
      assert s == [s[0]] + s[1..];
    }
  }

  /** Filtering with a test every element passes keeps everything. */
  lemma {:induction false} FilterAll<T(!new)>(s: seq<T>, p: T -> bool)
    requires forall x :: x in s ==> p(x)
    ensures Filter(s, p) == s
  {
    if |s| > 0 {
      FilterAll(s[1..], p);
      assert s == [s[0]] + s[1..];
    }
  }

  /** The index labels of `rows`, in order. */
  function IndexLabels(rows: seq<Row>): (r: seq<nat>)
    ensures |r| == |rows|
    ensures forall k :: 0 <= k < |rows| ==> r[k] == rows[k].index
  {
    seq(|rows|, k requires 0 <= k < |rows| => rows[k].index)
  }

  /** The tables whose row at position `k` carries index label `k` (a fresh `RangeIndex`). */
  predicate FreshIndex(rows: seq<Row>) {
    forall k :: 0 <= k < |rows| ==> rows[k].index == k
  }

  /** `seq(n, k => k)`: the labels of a fresh `RangeIndex` of length `n`. */
  function Positions(n: nat): (r: seq<nat>)
    ensures |r| == n && forall k :: 0 <= k < n ==> r[k] == k
  {
    seq(n, k requires 0 <= k < n => k)
  }

  /** Selecting rows and then reading their labels is selecting among the labels. */
  lemma {:induction false} FilterIndexLabels(rows: seq<Row>, p: Row -> bool, q: nat -> bool)
    requires forall x :: x in rows ==> p(x) == q(x.index)
    ensures IndexLabels(Filter(rows, p)) == Filter(IndexLabels(rows), q)
  {
    if |rows| > 0 {
      var labels := IndexLabels(rows);
      FilterIndexLabels(rows[1..], p, q);
      IndexLabelsCons(rows[0], rows[1..]);
      assert rows == [rows[0]] + rows[1..];
      assert labels[0] == rows[0].index && labels[1..] == IndexLabels(rows[1..]);
      if p(rows[0]) {
        IndexLabelsCons(rows[0], Filter(rows[1..], p));
      }
    }
  }

  /** The labels of a row followed by more rows: its label, then theirs. */
  lemma IndexLabelsCons(x: Row, rest: seq<Row>)
    ensures IndexLabels([x] + rest) == [x.index] + IndexLabels(rest)
  {
    var a := IndexLabels([x] + rest);
    var b := [x.index] + IndexLabels(rest);
    forall k | 0 <= k < |a| ensures a[k] == b[k] {
      if k > 0 {
        assert ([x] + rest)[k] == rest[k - 1];
      }
    }
  }

  /** In a table with a fresh index, every row sits at the position its label names. */
  lemma FreshIndexMember(rows: seq<Row>, x: Row)
    requires FreshIndex(rows) && x in rows
    ensures x.index < |rows| && rows[x.index] == x
  {
  }

  /** Column `col` never turns blank again below a non-blank cell. */
  ghost predicate NoBlankAfterValue(rows: seq<Row>, col: string) {
    forall i, j :: 0 <= i < j < |rows| && Get(rows[i], col).Some? ==> Get(rows[j], col).Some?
  }

  lemma {:induction false} FilterKeepsNoBlankAfterValue(rows: seq<Row>, p: Row -> bool, col: string)
    requires NoBlankAfterValue(rows, col)
    ensures NoBlankAfterValue(Filter(rows, p), col)
  {
    if |rows| > 0 {
      var tail := rows[1..];
      assert NoBlankAfterValue(tail, col) by {
        forall i, j | 0 <= i < j < |tail| && Get(tail[i], col).Some?
          ensures Get(tail[j], col).Some?
        {
          assert tail[i] == rows[i + 1] && tail[j] == rows[j + 1];
        }
      }
      FilterKeepsNoBlankAfterValue(tail, p, col);
      var rest := Filter(tail, p);
      if p(rows[0]) {
        var r := [rows[0]] + rest;
        forall i, j | 0 <= i < j < |r| && Get(r[i], col).Some?
          ensures Get(r[j], col).Some?
        {
          assert r[j] == rest[j - 1];
          if i == 0 {
            assert r[j] in tail;
            var m :| 0 <= m < |tail| && tail[m] == r[j];
            assert rows[m + 1] == r[j];
          } else {
            assert r[i] == rest[i - 1];
          }
        }
      }
    }
  }
}

=== FILE: search_engine.dfy ===
/**
 * The lookup cascade of `search_inventory` (utils/search_engine.py): a fixed chain of
 * matchers over one table, the first of which finds anything deciding the answer.
 * A search needs the serial column, and the product-name column once the exact serial
 * stage has found nothing; a missing one is pandas' `KeyError`.
 */
module SearchEngine {
  import opened Wrappers
  import opened Text
  import opened Frame

  datatype SearchError = KeyError(column: string)

  /** What `search_inventory` hands back: the matching rows and the message above them. */
  datatype Answer = Answer(matches: Table, message: string)

  const NoDataMessage := "Chưa có dữ liệu tìm kiếm."

  /** The reply when no stage finds anything. */
  const GuidanceMessage := "**\U{1F914} Hmm, tôi không tìm thấy thông tin nào cho từ khóa này.**\n    \nLà **Trợ lý Kho chuyên nghiệp**, tôi gợi ý bạn:\n1.  \U{1F50D} **Kiểm tra Serial:** Đảm bảo nhập đúng chính xác (vd: `21200...`).\n2.  \U{1F4E6} **Tên sản phẩm:** Thử nhập tên ngắn gọn (vd: `Switch` thay vì `Switch 8 cổng...`).\n3.  \U{1F464} **Tên nhân viên:** Nhập tên không dấu nếu có dấu không ra kết quả.\n\n*Bạn hãy thử lại xem sao nhé!* \U{1F447}"

  // ---------------------------------------------------------------------------------
  // Cell matchers
  // ---------------------------------------------------------------------------------

  /** `str.contains(q, case=False, na=False)` on one cell: a blank cell never matches. */
  predicate CellHas(v: Cell, q: string) {
    v.Some? && Contains(Lower(v.value), Lower(q))
  }

  /** The same after `astype(str)`: a blank cell is searched as the text "nan". */
  predicate TextHas(v: Cell, q: string) {
    Contains(Lower(AsStr(v)), Lower(q))
  }

  /** `str.lower() == q.lower()` on one cell: a blank cell equals nothing. */
  predicate SerialEquals(x: Row, q: string) {
    Get(x, SerialCol).Some? && Lower(Get(x, SerialCol).value) == Lower(q)
  }

  /** `df[mask]`: the rows `keep` accepts, in table order, under the same columns. */
  function Select(t: Table, keep: Row -> bool): (r: Table)
    ensures r.columns == t.columns && Subsequence(r.rows, t.rows)
    ensures forall x :: x in r.rows <==> x in t.rows && keep(x)
  {
    Table(t.columns, Filter(t.rows, keep))
  }

  /** A selection keeps every copy of an accepted row and no copy of a rejected one. */
  lemma SelectMultiset(t: Table, keep: Row -> bool)
    ensures forall x :: multiset(Select(t, keep).rows)[x] == if keep(x) then multiset(t.rows)[x] else 0
  {
    FilterMultiset(t.rows, keep);
  }

  // ---------------------------------------------------------------------------------
  // The stages
  // ---------------------------------------------------------------------------------

  /** Stage 1: the rows whose serial equals the query up to case. */
  function ExactSerialMatches(t: Table, q: string): (r: Table)
    ensures r.columns == t.columns && Subsequence(r.rows, t.rows)
    ensures forall x :: x in r.rows <==> x in t.rows && SerialEquals(x, q)
  {
    Select(t, x => SerialEquals(x, q))
  }

  /** One token of the combined stage hits a row when some searched field contains it. */
  predicate TokenHit(columns: seq<string>, x: Row, tok: string) {
    || CellHas(Get(x, NameCol), tok)
    || CellHas(Get(x, SerialCol), tok)
    || (HolderCol in columns && CellHas(Get(x, HolderCol), tok))
    || (CodeCol in columns && CellHas(Get(x, CodeCol), tok))
    || (StatusCol in columns && CellHas(Get(x, StatusCol), tok))
    || (DistrictCol in columns && TextHas(Get(x, DistrictCol), tok))
    || (WarehouseCol in columns && TextHas(Get(x, WarehouseCol), tok))
  }

  /** Every token hits the row: AND over the tokens, OR over the fields. */
  predicate AllTokensHit(columns: seq<string>, x: Row, tokens: seq<string>) {
    forall k :: 0 <= k < |tokens| ==> TokenHit(columns, x, tokens[k])
  }

  /**
   * Stage 2, the combined keyword search, with the row mask aligned to the table's
   * own rows: a row is kept exactly when every token hits it.
   */
  function CombinedMatches(t: Table, tokens: seq<string>): (r: Table)
    ensures r.columns == t.columns && Subsequence(r.rows, t.rows)
    ensures forall x :: x in r.rows <==> x in t.rows && AllTokensHit(t.columns, x, tokens)
  {
    Select(t, x => AllTokensHit(t.columns, x, tokens))
  }

  /**
   * The combined stage as the code computes it: the running mask starts as a Series
   * over the fresh labels `0..n-1`, and `&` with each token mask aligns the two on the
   * index labels. A row whose label is not below the row count meets a missing entry,
   * which counts as false, so it is never returned.
   */
  function CombinedMatchesAsWritten(t: Table, tokens: seq<string>): (r: Table)
    ensures r.columns == t.columns && Subsequence(r.rows, t.rows)
    ensures forall x :: x in r.rows <==>
      x in t.rows && x.index < |t.rows| && AllTokensHit(t.columns, x, tokens)
  {
    Select(t, (x: Row) => x.index < |t.rows| && AllTokensHit(t.columns, x, tokens))
  }

  /** Stage 3: the rows whose product name contains the query. */
  function NameMatches(t: Table, q: string): (r: Table)
    ensures r.columns == t.columns && Subsequence(r.rows, t.rows)
    ensures forall x :: x in r.rows <==> x in t.rows && CellHas(Get(x, NameCol), q)
  {
    Select(t, x => CellHas(Get(x, NameCol), q))
  }

  /**
   * The rows whose optional column `col` contains the query; when the table lacks the
   * column, the empty `pd.DataFrame()` rather than an error.
   */
  function OptionalMatches(t: Table, col: string, q: string): (r: Table)
    ensures col !in t.columns ==> r == Empty
    ensures col in t.columns ==> r.columns == t.columns && Subsequence(r.rows, t.rows)
    ensures forall x :: x in r.rows <==> col in t.columns && x in t.rows && CellHas(Get(x, col), q)
  {
    if col in t.columns then Select(t, x => CellHas(Get(x, col), q)) else Empty
  }

  /** The cells of `x` in the order of `columns`: what `drop_duplicates` compares. */
  function Values(columns: seq<string>, x: Row): (v: seq<Cell>)
    ensures |v| == |columns| && forall i :: 0 <= i < |columns| ==> v[i] == Get(x, columns[i])
  {
    seq(|columns|, i requires 0 <= i < |columns| => Get(x, columns[i]))
  }

  /** Two rows that agree on every column of the table. */
  predicate SameValues(columns: seq<string>, a: Row, b: Row) {
    Values(columns, a) == Values(columns, b)
  }

  /** Rows with the same values agree on every column the table has. */
  lemma SameValuesMeaning(columns: seq<string>, a: Row, b: Row)
    ensures SameValues(columns, a, b) <==> forall c :: c in columns ==> Get(a, c) == Get(b, c)
  {
    if forall c :: c in columns ==> Get(a, c) == Get(b, c) {
      assert forall i :: 0 <= i < |columns| ==> Values(columns, a)[i] == Values(columns, b)[i];
    }
  }

  /** Row `i` is the first of `rows` with its values. */
  predicate FirstOfItsValues(columns: seq<string>, rows: seq<Row>, i: nat)
    requires i < |rows|
  {
    forall j :: 0 <= j < i ==> !SameValues(columns, rows[j], rows[i])
  }

  /** No two rows of `r` have the same values. */
  ghost predicate NoTwoSame(columns: seq<string>, r: seq<Row>) {
    forall i, j :: 0 <= i < j < |r| ==> !SameValues(columns, r[i], r[j])
  }

  /** Whether `rows` already has a row with the values of `x`. */
  predicate HasSameValues(columns: seq<string>, rows: seq<Row>, x: Row) {
    exists k | 0 <= k < |rows| :: SameValues(columns, rows[k], x)
  }

  /** `x` is, in `rows`, the first row with its values. */
  predicate IsFirstOccurrence(columns: seq<string>, rows: seq<Row>, x: Row) {
    exists i | 0 <= i < |rows| :: rows[i] == x && FirstOfItsValues(columns, rows, i)
  }

  /** Every row of `rows` has a row with its values in `r`. */
  ghost predicate Covers(columns: seq<string>, r: seq<Row>, rows: seq<Row>) {
    forall i :: 0 <= i < |rows| ==> HasSameValues(columns, r, rows[i])
  }

  /** Every row of `r` is, in `rows`, the first with its values. */
  ghost predicate FirstsOnly(columns: seq<string>, r: seq<Row>, rows: seq<Row>) {
    forall k :: 0 <= k < |r| ==> IsFirstOccurrence(columns, rows, r[k])
  }

  /**
   * What `drop_duplicates(keep='first')` keeps, read off the input alone: row `i` in
   * place exactly when no earlier row has its values.
   */
  function FirstsOf(columns: seq<string>, rows: seq<Row>): seq<Row>
    decreases |rows|
  {
    if |rows| == 0 then []
    else
      var i := |rows| - 1;
      FirstsOf(columns, rows[..i]) + (if FirstOfItsValues(columns, rows, i) then [rows[i]] else [])
  }

  /**
   * `drop_duplicates()`: keeps, in their order, the rows that are the first of `rows`
   * with their values; one row of each set of equal rows survives. The scan compares
   * each row with the rows kept so far, and keeps exactly `FirstsOf`.
   */
  function DropDuplicates(columns: seq<string>, rows: seq<Row>): (r: seq<Row>)
    ensures Subsequence(r, rows)
    ensures NoTwoSame(columns, r) && Covers(columns, r, rows) && FirstsOnly(columns, r, rows)
    ensures r == FirstsOf(columns, rows)
    decreases |rows|
  {
    if |rows| == 0 then []
    else
      var p := rows[..|rows| - 1];
      var x := rows[|rows| - 1];
      assert rows == p + [x];
      var init := DropDuplicates(columns, p);
      SubsequenceMembers(init, p);
      SeenIffNotFirst(columns, p, x, init);
      FirstsOfSnoc(columns, p, x);
      if HasSameValues(columns, init, x) then
        SubsequenceAppend(init, p, x);
        DuplicateStep(columns, p, x, init);
        assert init + [] == init;
        init
      else
        SubsequenceExtend(init, p, x);
        FreshStep(columns, p, x, init);
        init + [x]
  }

  /** `FirstsOf` one row longer: the row is appended when it is the first with its values. */
  lemma FirstsOfSnoc(columns: seq<string>, p: seq<Row>, x: Row)
    ensures FirstsOf(columns, p + [x]) ==
      FirstsOf(columns, p) + (if FirstOfItsValues(columns, p + [x], |p|) then [x] else [])
  {
    assert (p + [x])[..|p|] == p;
  }

  /** The next row matches a kept row exactly when an earlier row has its values. */
  lemma SeenIffNotFirst(columns: seq<string>, p: seq<Row>, x: Row, init: seq<Row>)
    requires Covers(columns, init, p) && forall y :: y in init ==> y in p
    ensures HasSameValues(columns, init, x) <==> !FirstOfItsValues(columns, p + [x], |p|)
  {
    var rows := p + [x];
    if HasSameValues(columns, init, x) {
      var k :| 0 <= k < |init| && SameValues(columns, init[k], x);
      assert init[k] in init;
      var j :| 0 <= j < |p| && p[j] == init[k];
      assert rows[j] == p[j];
    }
    if !FirstOfItsValues(columns, rows, |p|) {
      var j :| 0 <= j < |p| && SameValues(columns, rows[j], rows[|p|]);
      assert rows[j] == p[j];
      assert HasSameValues(columns, init, p[j]);
      var k :| 0 <= k < |init| && SameValues(columns, init[k], p[j]);
    }
  }

  /** The next row repeats the values of one already kept: nothing is added. */
  lemma DuplicateStep(columns: seq<string>, p: seq<Row>, x: Row, init: seq<Row>)
    requires Covers(columns, init, p) && FirstsOnly(columns, init, p)
    requires HasSameValues(columns, init, x)
    ensures Covers(columns, init, p + [x]) && FirstsOnly(columns, init, p + [x])
  {
    var rows := p + [x];
    forall i | 0 <= i < |rows| ensures HasSameValues(columns, init, rows[i]) {
      if i < |p| {
        assert rows[i] == p[i];
      } else {
        assert rows[i] == x;
      }
    }
    forall k | 0 <= k < |init| ensures IsFirstOccurrence(columns, rows, init[k]) {
      FirstOccurrenceExtends(columns, p, x, init[k]);
    }
  }

  /** The first occurrence of a value in `p` stays the first in `p + [x]`. */
  lemma FirstOccurrenceExtends(columns: seq<string>, p: seq<Row>, x: Row, y: Row)
    requires IsFirstOccurrence(columns, p, y)
    ensures IsFirstOccurrence(columns, p + [x], y)
  {
    var rows := p + [x];
    var i :| 0 <= i < |p| && p[i] == y && FirstOfItsValues(columns, p, i);
    assert rows[i] == p[i];
    forall j | 0 <= j < i ensures !SameValues(columns, rows[j], rows[i]) {
      assert rows[j] == p[j];
    }
  }

  /** The next row has values not seen before: it is kept. */
  lemma FreshStep(columns: seq<string>, p: seq<Row>, x: Row, init: seq<Row>)
    requires NoTwoSame(columns, init) && Covers(columns, init, p) && FirstsOnly(columns, init, p)
    requires !HasSameValues(columns, init, x)
    ensures NoTwoSame(columns, init + [x]) && Covers(columns, init + [x], p + [x])
    ensures FirstsOnly(columns, init + [x], p + [x])
  {
    var rows := p + [x];
    var r := init + [x];
    forall i, j | 0 <= i < j < |r| ensures !SameValues(columns, r[i], r[j]) {
      assert r[i] == init[i];
      if j == |init| {
        assert r[j] == x;
      } else {
        assert r[j] == init[j];
      }
    }
    forall i | 0 <= i < |rows| ensures HasSameValues(columns, r, rows[i]) {
      if i < |p| {
        assert rows[i] == p[i];
        assert HasSameValues(columns, init, p[i]);
        var k :| 0 <= k < |init| && SameValues(columns, init[k], p[i]);
        assert r[k] == init[k];
      } else {
        assert r[|init|] == rows[i];
      }
    }
    forall j | 0 <= j < |p| ensures !SameValues(columns, rows[j], rows[|p|]) {
      assert rows[j] == p[j];
      assert HasSameValues(columns, init, p[j]);
      var k :| 0 <= k < |init| && SameValues(columns, init[k], p[j]);
    }
    assert FirstOfItsValues(columns, rows, |p|);
    forall k | 0 <= k < |r| ensures IsFirstOccurrence(columns, rows, r[k]) {
      if k < |init| {
        assert r[k] == init[k];
        FirstOccurrenceExtends(columns, p, x, init[k]);
      } else {
        assert rows[|p|] == r[k];
      }
    }
  }

  /** A row hits the unit stage when one of the unit columns the table has contains the query. */
  predicate UnitHit(columns: seq<string>, x: Row, q: string) {
    || (DistrictCol in columns && TextHas(Get(x, DistrictCol), q))
    || (WarehouseCol in columns && TextHas(Get(x, WarehouseCol), q))
  }

  /** `df[df['QUẬN/HUYỆN'].str.contains(query)]`, or nothing without that column. */
  function DistrictHits(t: Table, q: string): (r: seq<Row>)
    ensures DistrictCol !in t.columns ==> r == []
    ensures Subsequence(r, t.rows)
    ensures forall x :: x in r <==> DistrictCol in t.columns && x in t.rows && TextHas(Get(x, DistrictCol), q)
  {
    if DistrictCol in t.columns then Filter(t.rows, x => TextHas(Get(x, DistrictCol), q))
    else []
  }

  /** Both unit selections keep every copy of a matching row and no copy of another. */
  lemma UnitHitsMultiset(t: Table, q: string)
    ensures forall x :: (multiset(DistrictHits(t, q))[x] ==
                         if DistrictCol in t.columns && TextHas(Get(x, DistrictCol), q) then multiset(t.rows)[x] else 0)
    ensures forall x :: (multiset(WarehouseHits(t, q))[x] ==
                         if WarehouseCol in t.columns && TextHas(Get(x, WarehouseCol), q) then multiset(t.rows)[x] else 0)
  {
    FilterMultiset(t.rows, x => TextHas(Get(x, DistrictCol), q));
    FilterMultiset(t.rows, x => TextHas(Get(x, WarehouseCol), q));
  }

  /** `df[df['LOẠI KHO'].str.contains(query)]`, or nothing without that column. */
  function WarehouseHits(t: Table, q: string): (r: seq<Row>)
    ensures WarehouseCol !in t.columns ==> r == []
    ensures Subsequence(r, t.rows)
    ensures forall x :: x in r <==> WarehouseCol in t.columns && x in t.rows && TextHas(Get(x, WarehouseCol), q)
  {
    if WarehouseCol in t.columns then Filter(t.rows, x => TextHas(Get(x, WarehouseCol), q))
    else []
  }

  /**
   * Stage 6: the `QUẬN/HUYỆN` matches followed by the `LOẠI KHO` matches, with rows of
   * equal values collapsed to their first occurrence.
   */
  function UnitMatches(t: Table, q: string): (r: Table)
    ensures r.rows != [] ==> r.columns == t.columns
    ensures r.rows == [] <==> DistrictHits(t, q) + WarehouseHits(t, q) == []
    ensures Subsequence(r.rows, DistrictHits(t, q) + WarehouseHits(t, q))
    ensures FirstsOnly(t.columns, r.rows, DistrictHits(t, q) + WarehouseHits(t, q))
    ensures r.rows == FirstsOf(t.columns, DistrictHits(t, q) + WarehouseHits(t, q))
    ensures forall x :: x in r.rows ==> x in t.rows && UnitHit(t.columns, x, q)
    ensures forall x :: x in t.rows && UnitHit(t.columns, x, q) ==> HasSameValues(t.columns, r.rows, x)
    ensures NoTwoSame(t.columns, r.rows)
  {
    var district := DistrictHits(t, q);
    var warehouse := WarehouseHits(t, q);
    var both := district + warehouse;
    if |both| == 0 then Empty
    else
      var r := DropDuplicates(t.columns, both);
      SubsequenceMembers(r, both);
      UnitCoverage(t, q, district, warehouse, r);
      Table(t.columns, r)
  }

  /** Every kept row is a unit hit, and every unit hit is kept or has its values kept. */
  lemma UnitCoverage(t: Table, q: string, district: seq<Row>, warehouse: seq<Row>, r: seq<Row>)
    requires forall x :: x in district <==> DistrictCol in t.columns && x in t.rows && TextHas(Get(x, DistrictCol), q)
    requires forall x :: x in warehouse <==> WarehouseCol in t.columns && x in t.rows && TextHas(Get(x, WarehouseCol), q)
    requires Covers(t.columns, r, district + warehouse)
    requires forall x :: x in r ==> x in district + warehouse
    ensures forall x :: x in r ==> x in t.rows && UnitHit(t.columns, x, q)
    ensures forall x :: x in t.rows && UnitHit(t.columns, x, q) ==> HasSameValues(t.columns, r, x)
  {
    var both := district + warehouse;
    forall x | x in r ensures x in t.rows && UnitHit(t.columns, x, q) {
      assert x in district || x in warehouse;
    }
    forall x | x in t.rows && UnitHit(t.columns, x, q) ensures HasSameValues(t.columns, r, x) {
      assert x in both;
      var i :| 0 <= i < |both| && both[i] == x;
    }
  }

  /** Stage 7: the rows whose serial contains the query. */
  function SerialPartMatches(t: Table, q: string): (r: Table)
    ensures r.columns == t.columns && Subsequence(r.rows, t.rows)
    ensures forall x :: x in r.rows <==> x in t.rows && CellHas(Get(x, SerialCol), q)
  {
    Select(t, x => CellHas(Get(x, SerialCol), q))
  }

  // ---------------------------------------------------------------------------------
  // Messages
  // ---------------------------------------------------------------------------------

  /** `Series.unique()`: the distinct values in order of first appearance. */
  function Unique<T(==, !new)>(s: seq<T>): (r: seq<T>)
    ensures Distinct(r) && Subsequence(r, s)
    ensures forall v :: v in r <==> v in s
    decreases |s|
  {
    if |s| == 0 then []
    else
      var p := s[..|s| - 1];
      var x := s[|s| - 1];
      assert s == p + [x];
      var init := Unique(p);
      if x in init then
        SubsequenceAppend(init, p, x);
        init
      else
        SubsequenceExtend(init, p, x);
        init + [x]
  }

  /** The first `n` elements, or all of them when there are fewer. */
  function Take<T>(s: seq<T>, n: nat): (r: seq<T>)
    ensures |r| <= n && r <= s
    ensures |s| >= n ==> |r| == n
    ensures |s| < n ==> r == s
  {
    if |s| <= n then s else s[..n]
  }

  /** The district column of `found`, top to bottom. */
  function Districts(found: Table): (r: seq<Cell>)
    ensures |r| == |found.rows| && forall k :: 0 <= k < |r| ==> r[k] == Get(found.rows[k], DistrictCol)
  {
    seq(|found.rows|, k requires 0 <= k < |found.rows| => Get(found.rows[k], DistrictCol))
  }

  /**
   * The district names of the unit message: the first three distinct `QUẬN/HUYỆN`
   * values of the result, as text, separated by ", "; nothing when there is no such column.
   */
  function UnitList(found: Table): string {
    if DistrictCol in found.columns then
      var names := Take(Unique(Districts(found)), 3);
      Join(seq(|names|, k requires 0 <= k < |names| => AsStr(names[k])), ", ")
    else ""
  }

  /** The stages of the cascade. */
  datatype Stage = ExactSerial | Combined | Name | Code | Holder | Unit | SerialPart

  /** Row `x` is what stage `s` looks for: the stage's field contains (or equals) the query. */
  predicate StageHit(columns: seq<string>, q: string, s: Stage, x: Row) {
    match s
    case ExactSerial => SerialEquals(x, q)
    case Combined => AllTokensHit(columns, x, Split(q))
    case Name => CellHas(Get(x, NameCol), q)
    case Code => CodeCol in columns && CellHas(Get(x, CodeCol), q)
    case Holder => HolderCol in columns && CellHas(Get(x, HolderCol), q)
    case Unit => UnitHit(columns, x, q)
    case SerialPart => CellHas(Get(x, SerialCol), q)
  }

  /**
   * What stage `s` finds for the stripped query `q`: rows of the table, each a hit of
   * the stage; every hit is found, except that the unit stage keeps one row per set of
   * rows with equal values.
   */
  function StageRows(t: Table, q: string, s: Stage): (r: Table)
    ensures forall x :: x in r.rows ==> x in t.rows && StageHit(t.columns, q, s, x)
    ensures s != Unit ==> forall x :: x in t.rows && StageHit(t.columns, q, s, x) ==> x in r.rows
    ensures s == Unit ==> forall x :: x in t.rows && StageHit(t.columns, q, s, x) ==> HasSameValues(t.columns, r.rows, x)
    ensures r.rows != [] ==> r.columns == t.columns
  {
    match s
    case ExactSerial => ExactSerialMatches(t, q)
    case Combined => CombinedMatches(t, Split(q))
    case Name => NameMatches(t, q)
    case Code => OptionalMatches(t, CodeCol, q)
    case Holder => OptionalMatches(t, HolderCol, q)
    case Unit => UnitMatches(t, q)
    case SerialPart => SerialPartMatches(t, q)
  }

  /** The message that comes with the rows `found` of stage `s`. */
  function StageMessage(q: string, s: Stage, found: Table): (m: string)
    ensures |m| > 0
  {
    var n := NatToString(|found.rows|);
    match s
    case ExactSerial => "Tìm thấy theo Serial: " + q
    case Combined => "Tìm thấy " + n + " kết quả tổng hợp cho: '" + q + "'"
    case Name => "Tìm thấy " + n + " sản phẩm có tên chứa: '" + q + "'"
    case Code => "Tìm thấy " + n + " sản phẩm có mã chứa: '" + q + "'"
    case Holder => "Tìm thấy " + n + " tài sản của nhân viên: '" + q + "'"
    case Unit => "Tìm thấy " + n + " kết quả tại kho/đơn vị: " + UnitList(found) + "..."
    case SerialPart => "Tìm thấy Serial chứa: '" + q + "'"
  }

  /** The answer a stage gives once it has found something. */
  function StageAnswer(t: Table, q: string, s: Stage): Answer {
    Answer(StageRows(t, q, s), StageMessage(q, s, StageRows(t, q, s)))
  }

  // ---------------------------------------------------------------------------------
  // The cascade
  // ---------------------------------------------------------------------------------

  /**
   * `search_inventory(query, df)`: an empty table or a blank query gives no rows and
   * the no-data message; otherwise the stage `Decide` picks for the stripped query
   * gives its rows and message, and no stage at all gives the guidance message.
   */
  function Search(query: string, t: Table): (r: Result<Answer, SearchError>)
    ensures IsEmpty(t) || Strip(query) == "" ==> r == Success(Answer(Empty, NoDataMessage))
    ensures r.Failure? <==> !IsEmpty(t) && Strip(query) != "" && Decide(Strip(query), t).Failure?
    ensures r.Success? ==> |r.value.message| > 0 && forall x :: x in r.value.matches.rows ==> x in t.rows
    ensures r.Success? && r.value.matches.rows != [] ==> r.value.matches.columns == t.columns
    ensures !IsEmpty(t) && Strip(query) != "" && Decide(Strip(query), t) == Success(None) ==>
      r == Success(Answer(Empty, GuidanceMessage))
    ensures !IsEmpty(t) && Strip(query) != "" && Decide(Strip(query), t).Success? && Decide(Strip(query), t).value.Some? ==>
      r.Success? && r.value.matches == StageRows(t, Strip(query), Decide(Strip(query), t).value.value)
  {
    if IsEmpty(t) || Strip(query) == "" then Success(Answer(Empty, NoDataMessage))
    else
      var q := Strip(query);
      match Decide(q, t)
      case Failure(e) => Failure(e)
      case Success(None) => Success(Answer(Empty, GuidanceMessage))
      case Success(Some(s)) => Success(StageAnswer(t, q, s))
  }

  /**
   * The stage that answers the stripped query `q`, as the body of `search_inventory`
   * tries them after the guard: exact serial first; then, once the name column is
   * known to exist, the rest of the cascade in `Pick`. The serial column is needed at
   * once, the name column once no serial matched exactly; a missing one is the
   * `KeyError`.
   */
  function Decide(q: string, t: Table): (r: Result<Option<Stage>, SearchError>)
    ensures r.Failure? <==>
      SerialCol !in t.columns || (NameCol !in t.columns && ExactSerialMatches(t, q).rows == [])
    ensures r.Failure? ==> (r.error == KeyError(SerialCol) || r.error == KeyError(NameCol)) && r.error.column !in t.columns
    ensures r.Success? && r.value.Some? ==> StageRows(t, q, r.value.value).rows != []
    ensures r.Success? && r.value == Some(Combined) ==> |Split(q)| > 1
  {
    if SerialCol !in t.columns then Failure(KeyError(SerialCol))
    else if Finds(t, q)(ExactSerial) then Success(Some(ExactSerial))
    else if NameCol !in t.columns then Failure(KeyError(NameCol))
    else Success(Pick(Finds(t, q), |Split(q)| > 1))
  }

  /** Whether stage `s` finds a row of `t` for the stripped query `q`. */
  function Finds(t: Table, q: string): (has: Stage -> bool)
    ensures forall s :: has(s) <==> StageRows(t, q, s).rows != []
  {
    s => StageRows(t, q, s).rows != []
  }

  /**
   * The stages after the exact serial one, in the order the code tries them: the
   * combined stage (only when `multi`, the query having several tokens), then name,
   * code, holder, unit and partial serial. `has` says which stages find a row.
   */
  function Pick(has: Stage -> bool, multi: bool): (r: Option<Stage>)
    ensures r.Some? ==> has(r.value) && r.value != ExactSerial
    ensures r == Some(Combined) ==> multi
  {
    if multi && has(Combined) then Some(Combined)
    else if has(Name) then Some(Name)
    else if has(Code) then Some(Code)
    else if has(Holder) then Some(Holder)
    else if has(Unit) then Some(Unit)
    else if has(SerialPart) then Some(SerialPart)
    else None
  }

  /** The stages in the order they are tried; the combined one only for several tokens. */
  function Cascade(q: string): (r: seq<Stage>)
    ensures |r| >= 6 && r[0] == ExactSerial && r[|r| - 5..] == [Name, Code, Holder, Unit, SerialPart]
    ensures Combined in r <==> |Split(q)| > 1
    ensures |r| == if |Split(q)| > 1 then 7 else 6
    ensures |Split(q)| > 1 ==> r[1] == Combined
  {
    Stages(|Split(q)| > 1)
  }

  /** The cascade, with or without the combined stage. */
  function Stages(multi: bool): seq<Stage> {
    [ExactSerial] + (if multi then [Combined] else []) + [Name, Code, Holder, Unit, SerialPart]
  }

  /** The position of the first element of `s` that satisfies `p`, if any does. */
  function FirstWhere<T>(s: seq<T>, p: T -> bool): (r: Option<nat>)
    ensures r.Some? ==> r.value < |s| && p(s[r.value])
    ensures r.Some? ==> forall j :: 0 <= j < r.value ==> !p(s[j])
    ensures r.None? ==> forall j :: 0 <= j < |s| ==> !p(s[j])
    decreases |s|
  {
    if |s| == 0 then None
    else if p(s[0]) then Some(0)
    else
      match FirstWhere(s[1..], p)
      case None => None
      case Some(i) => Some(i + 1)
  }

  // ---------------------------------------------------------------------------------
  // Properties of the cascade
  // ---------------------------------------------------------------------------------

  /**
   * `Decide` picks the first stage of `Cascade(q)` that finds a row, and nothing
   * exactly when no stage does: every stage before the chosen one found nothing.
   */
  lemma DecideFollowsCascade(q: string, t: Table)
    requires Decide(q, t).Success?
    ensures var stages := Cascade(q);
      var hit := FirstWhere(stages, Finds(t, q));
      && (hit.None? <==> Decide(q, t).value.None?)
      && (hit.Some? ==> Decide(q, t).value == Some(stages[hit.value]))
  {
    var has := Finds(t, q);
    var stages := Cascade(q);
    if has(ExactSerial) {
      FirstWhereAt(stages, has, 0);
    } else {
      PickIsFirst(has, |Split(q)| > 1);
    }
  }

  /** `Pick` chooses the first stage of the cascade that finds a row, when the exact one does not. */
  lemma PickIsFirst(has: Stage -> bool, multi: bool)
    requires !has(ExactSerial)
    ensures var stages := Stages(multi);
      var hit := FirstWhere(stages, has);
      && (hit.None? <==> Pick(has, multi).None?)
      && (hit.Some? ==> Pick(has, multi) == Some(stages[hit.value]))
  {
    var stages := Stages(multi);
    var c := if multi then 1 else 0;
    assert |stages| == 6 + c && stages[0] == ExactSerial && (multi ==> stages[1] == Combined);
    assert stages[1 + c] == Name && stages[2 + c] == Code && stages[3 + c] == Holder;
    assert stages[4 + c] == Unit && stages[5 + c] == SerialPart;
    var p := match Pick(has, multi)
      case None => 6 + c
      case Some(Combined) => 1
      case Some(Name) => 1 + c
      case Some(Code) => 2 + c
      case Some(Holder) => 3 + c
      case Some(Unit) => 4 + c
      case Some(_) => 5 + c;
    FirstWhereAt(stages, has, p);
  }

  /** A position with no match before it and a match at it is the first match. */
  lemma {:induction false} FirstWhereAt<T>(s: seq<T>, p: T -> bool, k: nat)
    requires k <= |s| && forall j :: 0 <= j < k ==> !p(s[j])
    requires k < |s| ==> p(s[k])
    ensures k < |s| ==> FirstWhere(s, p) == Some(k)
    ensures k == |s| ==> FirstWhere(s, p) == None
  {
    var hit := FirstWhere(s, p);
    if hit.Some? {
      assert hit.value >= k;
    }
  }

  /**
   * A query equal, up to case, to some row's serial is answered by the exact serial
   * stage alone: exactly those rows, in table order, whatever later stages would find.
   */
  lemma ExactSerialAnswers(query: string, t: Table, x: Row)
    requires !IsEmpty(t) && Strip(query) != "" && SerialCol in t.columns
    requires x in t.rows && SerialEquals(x, Strip(query))
    ensures Search(query, t) == Success(Answer(ExactSerialMatches(t, Strip(query)), "Tìm thấy theo Serial: " + Strip(query)))
  {
    assert x in ExactSerialMatches(t, Strip(query)).rows;
  }

  /** Every row of an answer is a hit of the stage that gave it. */
  lemma AnswerRowsAreHits(query: string, t: Table)
    requires !IsEmpty(t) && Strip(query) != ""
    requires Decide(Strip(query), t).Success? && Decide(Strip(query), t).value.Some?
    ensures var s := Decide(Strip(query), t).value.value;
      && Search(query, t).Success?
      && forall x :: x in Search(query, t).value.matches.rows ==> x in t.rows && StageHit(t.columns, Strip(query), s, x)
  {
  }
}

=== FILE: search_properties.dfy ===
/**
 * Properties that join the loader and the search: what a search over a loaded table
 * finds, and where the combined stage's index alignment loses rows the loader kept.
 */
module SearchProperties {
  import opened Wrappers
  import opened Text
  import opened Frame
  import opened Loader
  import opened SearchEngine

  /**
   * Searching for the (non-empty) serial of any loaded row answers through the exact
   * serial stage, and that row is among the rows returned.
   */
  lemma LoadedSerialFound(csv: Csv, k: nat)
    requires SerialCol in csv.columns
    requires k < |Load(Success(csv)).rows|
    requires Get(Load(Success(csv)).rows[k], SerialCol) != Some("")
    ensures var t := Load(Success(csv));
      var s := Get(t.rows[k], SerialCol).value;
      && Search(s, t) == Success(Answer(ExactSerialMatches(t, s), "Tìm thấy theo Serial: " + s))
      && t.rows[k] in Search(s, t).value.matches.rows
  {
    var t := Load(Success(csv));
    var x := t.rows[k];
    LoadRowContents(csv, k);
    var raw := Lookup(csv.records[x.index], SerialCol);
    var s := Strip(AsStr(raw));
    assert Get(x, SerialCol) == Some(s);
    StripIdempotent(AsStr(raw));
    assert Strip(s) == s;
    assert SerialEquals(x, s);
    ExactSerialAnswers(s, t, x);
  }

  /**
   * On a table whose index is a fresh `RangeIndex` the label alignment of the combined
   * stage is harmless: it keeps the same rows as the aligned stage.
   */
  lemma CombinedAsWrittenOnFreshIndex(t: Table, tokens: seq<string>)
    requires FreshIndex(t.rows)
    ensures CombinedMatchesAsWritten(t, tokens) == CombinedMatches(t, tokens)
  {
    forall x | x in t.rows
      ensures (x.index < |t.rows| && AllTokensHit(t.columns, x, tokens)) == AllTokensHit(t.columns, x, tokens)
    {
      FreshIndexMember(t.rows, x);
    }
    FilterCongruent(t.rows, (x: Row) => x.index < |t.rows| && AllTokensHit(t.columns, x, tokens),
      (x: Row) => AllTokensHit(t.columns, x, tokens));
  }

  /**
   * When every record of the download has a serial, the loader drops nothing, so the
   * loaded table keeps its fresh index and the combined stage loses no row.
   */
  lemma LoadWithAllSerialsIsFresh(csv: Csv, tokens: seq<string>)
    requires SerialCol in csv.columns
    requires forall l :: 0 <= l < |csv.records| ==> Lookup(csv.records[l], SerialCol).Some?
    ensures |Load(Success(csv)).rows| == |csv.records|
    ensures FreshIndex(Load(Success(csv)).rows)
    ensures CombinedMatchesAsWritten(Load(Success(csv)), tokens) == CombinedMatches(Load(Success(csv)), tokens)
  {
    var t := Load(Success(csv));
    var n := |csv.records|;
    LoadKeepsSerialRows(csv);
    FilterAll(Positions(n), SerialMask(csv));
    assert IndexLabels(t.rows) == Positions(n);
    forall k | 0 <= k < |t.rows| ensures t.rows[k].index == k {
      assert IndexLabels(t.rows)[k] == k;
    }
    CombinedAsWrittenOnFreshIndex(t, tokens);
  }

  /** A download whose first record lost its serial: a merged product with one unit. */
  const GappedCsv := Csv(
    [SerialCol, NameCol, HolderCol],
    [ map[SerialCol := None, NameCol := Some("Switch"), HolderCol := None],
      map[SerialCol := Some("SN1"), NameCol := None, HolderCol := Some("Van")] ])

  /** Only the second record of `GappedCsv` has a serial, so one row is loaded, labelled 1. */
  lemma GappedLabels(csv: Csv)
    requires csv == GappedCsv
    ensures var t := Load(Success(csv)); |t.rows| == 1 && t.rows[0].index == 1
  {
    var t := Load(Success(csv));
    LoadKeepsSerialRows(csv);
    GappedMask(csv);
    assert IndexLabels(t.rows)[0] == 1;
  }

  lemma GappedMask(csv: Csv)
    requires csv == GappedCsv
    ensures Filter(Positions(|csv.records|), SerialMask(csv)) == [1]
  {
    assert !SerialAt(csv, 0) && SerialAt(csv, 1);
    assert Positions(2) == [0, 1];
    assert [0, 1][1..] == [1];
  }

  /** The one row loaded from `GappedCsv`: label 1, the product name filled down into it. */
  lemma GappedLoad(csv: Csv)
    requires csv == GappedCsv
    ensures var t := Load(Success(csv));
      && |t.rows| == 1 && t.rows[0].index == 1
      && Get(t.rows[0], SerialCol) == Some("SN1")
      && Get(t.rows[0], NameCol) == Some("Switch")
      && Get(t.rows[0], HolderCol) == Some("Van")
  {
    GappedLabels(csv);
    LoadRowContents(csv, 0);
    LoadRowFilled(csv, 0);
    StripUnchanged("SN1");
    StripUnchanged("Van");
    var raw := ReadIndex(csv).rows;
    assert raw[1] == Row(1, csv.records[1]) && raw[0] == Row(0, csv.records[0]);
    assert NearestAbove(raw, NameCol, 1) == Some("Switch");
  }

  /** Both tokens hit the row loaded from `GappedCsv`: one its name, one its holder. */
  lemma GappedRowHits(csv: Csv)
    requires csv == GappedCsv
    ensures var t := Load(Success(csv));
      |t.rows| == 1 && AllTokensHit(t.columns, t.rows[0], ["Switch", "Van"])
  {
    var t := Load(Success(csv));
    GappedLoad(csv);
    var x := t.rows[0];
    assert TokenHit(t.columns, x, "Switch");
    assert TokenHit(t.columns, x, "Van");
  }

  /**
   * A combined query such as "Switch Van" names the product and the holder of the one
   * row loaded from `GappedCsv`. The aligned stage finds that row; the code as written
   * finds nothing, because the row's label 1 is not below the row count 1.
   */
  lemma CombinedAsWrittenLosesLoadedRow(csv: Csv, query: string)
    requires csv == GappedCsv && Split(query) == ["Switch", "Van"]
    ensures var t := Load(Success(csv));
      var tokens := Split(query);
      && |t.rows| == 1
      && CombinedMatches(t, tokens).rows == t.rows
      && CombinedMatchesAsWritten(t, tokens).rows == []
  {
    var t := Load(Success(csv));
    GappedLabels(csv);
    GappedRowHits(csv);
    var tokens := ["Switch", "Van"];
    var x := t.rows[0];
    assert t.rows == [x];
    var aligned := CombinedMatches(t, tokens).rows;
    assert x in aligned;
    assert Subsequence(aligned, t.rows);
    assert |aligned| <= 1;
    assert aligned == [aligned[0]];
  }
}

=== FILE: sorting.dfy ===
/**
 * Python's `sorted(s, key=key)` for a natural-number key, and `list.remove(x)`: the
 * two list operations the results table applies to its column names.
 */
module Sorting {
  import opened Frame

  predicate SortedBy<T>(s: seq<T>, key: T -> nat) {
    forall i, j :: 0 <= i < j < |s| ==> key(s[i]) <= key(s[j])
  }

  /** The elements of `s` whose key is `k`, in their order in `s`. */
  function KeyClass<T(==, !new)>(s: seq<T>, key: T -> nat, k: nat): seq<T> {
    Filter(s, (x: T) => key(x) == k)
  }

  /** Puts `x` into `r` after every element whose key is not above its own. */
  function Insert<T>(x: T, r: seq<T>, key: T -> nat): (res: seq<T>)
    ensures |res| == |r| + 1
    ensures multiset(res) == multiset(r) + multiset{x}
    decreases |r|
  {
    if |r| == 0 then [x]
    else if key(r[|r| - 1]) <= key(x) then r + [x]
    else
      LastSplit(r);
      Insert(x, r[..|r| - 1], key) + [r[|r| - 1]]
  }

  /** `sorted(s, key=key)`, inserting the elements one by one from the left. */
  function SortBy<T>(s: seq<T>, key: T -> nat): (r: seq<T>)
    ensures multiset(r) == multiset(s)
    ensures SortedBy(r, key)
    decreases |s|
  {
    if |s| == 0 then []
    else
      var p := SortBy(s[..|s| - 1], key);
      InsertSorted(s[|s| - 1], p, key);
      LastSplit(s);
      Insert(s[|s| - 1], p, key)
  }

  /** Inserting into a sorted sequence keeps it sorted. */
  lemma {:induction false} InsertSorted<T>(x: T, r: seq<T>, key: T -> nat)
    requires SortedBy(r, key)
    ensures SortedBy(Insert(x, r, key), key)
    decreases |r|
  {
    if |r| > 0 {
      var y := r[|r| - 1];
      var init := r[..|r| - 1];
      if key(y) > key(x) {
        assert SortedBy(init, key);
        InsertSorted(x, init, key);
        InsertMembers(x, init, key);
        SortedBelowLast(r, key);
        SortedSnoc(Insert(x, init, key), y, key);
      }
    }
  }

  /** In a sorted sequence no element before the last has a greater key. */
  lemma SortedBelowLast<T>(r: seq<T>, key: T -> nat)
    requires |r| > 0 && SortedBy(r, key)
    ensures forall z :: z in r[..|r| - 1] ==> key(z) <= key(r[|r| - 1])
  {
    forall z | z in r[..|r| - 1] ensures key(z) <= key(r[|r| - 1]) {
      var k :| 0 <= k < |r| - 1 && r[..|r| - 1][k] == z;
      assert r[k] == z;
    }
  }

  /** Every element of the result of `Insert` is `x` or an element of `r`. */
  lemma {:induction false} InsertMembers<T>(x: T, r: seq<T>, key: T -> nat)
    ensures forall z :: z in Insert(x, r, key) ==> z == x || z in r
    decreases |r|
  {
    if |r| > 0 && key(r[|r| - 1]) > key(x) {
      InsertMembers(x, r[..|r| - 1], key);
    }
  }

  /** A sorted sequence stays sorted when an element whose key bounds all of it is appended. */
  lemma SortedSnoc<T>(m: seq<T>, y: T, key: T -> nat)
    requires SortedBy(m, key) && forall z :: z in m ==> key(z) <= key(y)
    ensures SortedBy(m + [y], key)
  {
    var res := m + [y];
    forall i, j | 0 <= i < j < |res| ensures key(res[i]) <= key(res[j]) {
      assert res[i] == m[i];
      if j < |m| {
        assert res[j] == m[j];
      }
    }
  }

  /** Inserting adds `x` to the end of its own key's class and leaves every other class. */
  lemma {:induction false} InsertClass<T(!new)>(x: T, r: seq<T>, key: T -> nat, k: nat)
    ensures KeyClass(Insert(x, r, key), key, k) == KeyClass(r, key, k) + (if key(x) == k then [x] else [])
    decreases |r|
  {
    var p := (z: T) => key(z) == k;
    if |r| == 0 {
      FilterSnoc([], x, p);
      assert [] + [x] == [x];
    } else {
      var y := r[|r| - 1];
      var init := r[..|r| - 1];
      LastSplit(r);
      if key(y) <= key(x) {
        FilterSnoc(r, x, p);
      } else {
        var m := Insert(x, init, key);
        assert Insert(x, r, key) == m + [y];
        InsertClass(x, init, key, k);
        FilterSnoc(init, y, p);
        FilterSnoc(m, y, p);
        // `x` and `y` have different keys, so at most one of them is in the class.
        var cx := if key(x) == k then [x] else [];
        var cy := if key(y) == k then [y] else [];
        assert cx == [] || cy == [];
        assert Filter(m + [y], p) == Filter(init, p) + cx + cy;
        var f := Filter(init, p);
        if cx == [] {
          assert f + cx + cy == f + cy && f + cy + cx == f + cy;
        } else {
          assert f + cx + cy == f + cx && f + cy + cx == f + cx;
        }
      }
    }
  }

  /** The sort is stable: for every key, its elements come out in the order they went in. */
  lemma {:induction false} SortStable<T(!new)>(s: seq<T>, key: T -> nat, k: nat)
    ensures KeyClass(SortBy(s, key), key, k) == KeyClass(s, key, k)
    decreases |s|
  {
    if |s| > 0 {
      var x := s[|s| - 1];
      var init := s[..|s| - 1];
      SortStable(init, key, k);
      InsertClass(x, SortBy(init, key), key, k);
      LastSplit(s);
      FilterSnoc(init, x, (z: T) => key(z) == k);
    }
  }

  /** Leaving elements out of a sorted sequence keeps it sorted. */
  lemma {:induction false} SubsequenceSorted<T>(a: seq<T>, b: seq<T>, key: T -> nat)
    requires Subsequence(a, b) && SortedBy(b, key)
    ensures SortedBy(a, key)
    decreases |b|
  {
    if |a| > 0 && |b| > 0 {
      assert SortedBy(b[1..], key) by {
        forall i, j | 0 <= i < j < |b[1..]| ensures key(b[1..][i]) <= key(b[1..][j]) {
          assert b[1..][i] == b[i + 1] && b[1..][j] == b[j + 1];
        }
      }
      if a[0] == b[0] {
        SubsequenceSorted(a[1..], b[1..], key);
        SubsequenceMembers(a[1..], b[1..]);
        forall i, j | 0 <= i < j < |a| ensures key(a[i]) <= key(a[j]) {
          assert a[j] == a[1..][j - 1];
          if i > 0 {
            assert a[i] == a[1..][i - 1];
          } else {
            assert a[j] in a[1..];
            var m :| 0 <= m < |b[1..]| && b[1..][m] == a[j];
            assert b[m + 1] == a[j];
          }
        }
      } else {
        SubsequenceSorted(a, b[1..], key);
      }
    }
  }

  /** `list.remove(x)`: drops the first occurrence of `x`; a list without `x` is kept. */
  function RemoveFirst<T(==)>(s: seq<T>, x: T): (r: seq<T>)
    ensures multiset(r) == multiset(s) - multiset{x}
    ensures Subsequence(r, s)
  {
    if |s| == 0 then []
    else if s[0] == x then
      assert s == [s[0]] + s[1..];
      SubsequenceSelf(s[1..]);
      SubsequenceCons(s[0], s[1..], s[1..]);
      s[1..]
    else
      var rest := RemoveFirst(s[1..], x);
      assert s == [s[0]] + s[1..];
      assert ([s[0]] + rest)[1..] == rest;
      [s[0]] + rest
  }

  /**
   * `list.remove(x)` takes out the first occurrence: when `i` is the position of the
   * first `x`, the elements before it and the elements after it, joined; when `x`
   * does not occur (`i == |s|`), the list unchanged.
   */
  lemma {:induction false} RemoveFirstMeaning<T>(s: seq<T>, x: T, i: nat)
    requires i <= |s| && x !in s[..i] && (i < |s| ==> s[i] == x)
    ensures RemoveFirst(s, x) == if i < |s| then s[..i] + s[i + 1..] else s
  {
    if |s| > 0 {
      RemoveFirstCons(s, x);
      if i == 0 {
        assert s[..0] + s[1..] == s[1..];
      } else {
        var t := s[1..];
        assert s[0] in s[..i];
        TailPrefix(s, i);
        RemoveFirstMeaning(t, x, i - 1);
        if i < |s| {
          ConsJoin(s, i);
        } else {
          assert s == [s[0]] + t;
        }
      }
    }
  }

  /** The tail's prefix is the prefix's tail. */
  lemma TailPrefix<T>(s: seq<T>, i: nat)
    requires 0 < i <= |s|
    ensures s[1..][..i - 1] == s[..i][1..]
  {
  }

  /** Cutting out position `i > 0` of `s` is keeping its head and cutting position `i - 1` of its tail. */
  lemma ConsJoin<T>(s: seq<T>, i: nat)
    requires 0 < i < |s|
    ensures [s[0]] + (s[1..][..i - 1] + s[1..][i..]) == s[..i] + s[i + 1..]
  {
    assert s[..i] == [s[0]] + s[1..][..i - 1];
    assert s[i + 1..] == s[1..][i..];
  }

  /** Removing `x` changes no class but its own, from which it removes `x`. */
  lemma {:induction false} RemoveClass<T(!new)>(s: seq<T>, x: T, key: T -> nat, k: nat)
    ensures KeyClass(RemoveFirst(s, x), key, k) ==
      if k == key(x) then RemoveFirst(KeyClass(s, key, k), x) else KeyClass(s, key, k)
    decreases |s|
  {
    if |s| > 0 {
      var y := s[0];
      var c := KeyClass(s[1..], key, k);
      KeyClassCons(s, key, k);
      RemoveFirstCons(s, x);
      if y != x {
        RemoveClass(s[1..], x, key, k);
        var rest := RemoveFirst(s[1..], x);
        KeyClassCons([y] + rest, key, k);
        assert ([y] + rest)[1..] == rest;
        if key(y) == k {
          RemoveFirstCons([y] + c, x);
          assert ([y] + c)[1..] == c;
        }
      } else if k == key(x) {
        RemoveFirstCons([y] + c, x);
        assert ([y] + c)[1..] == c;
      }
    }
  }

  /** The class of a non-empty sequence: its head when the head has key `k`, then the class of its tail. */
  lemma KeyClassCons<T(!new)>(s: seq<T>, key: T -> nat, k: nat)
    requires |s| > 0
    ensures KeyClass(s, key, k) == (if key(s[0]) == k then [s[0]] else []) + KeyClass(s[1..], key, k)
  {
  }

  /** `list.remove` on a non-empty list: the tail when the head is `x`, else the head kept. */
  lemma RemoveFirstCons<T>(s: seq<T>, x: T)
    requires |s| > 0
    ensures RemoveFirst(s, x) == if s[0] == x then s[1..] else [s[0]] + RemoveFirst(s[1..], x)
  {
  }

  /** An element at two positions occurs at least twice. */
  lemma TwoOccurrences<T>(s: seq<T>, i: nat, j: nat)
    requires i < j < |s|
    ensures s[i] == s[j] ==> multiset(s)[s[i]] >= 2
  {
    assert s == s[..i] + [s[i]] + s[i + 1..j] + [s[j]] + s[j + 1..];
  }

  /** In a sequence without repetitions every element occurs once. */
  lemma {:induction false} DistinctMultiset<T>(s: seq<T>)
    requires Distinct(s)
    ensures forall x :: x in s ==> multiset(s)[x] == 1
    decreases |s|
  {
    if |s| > 0 {
      DistinctTail(s);
      DistinctMultiset(s[1..]);
      assert s == [s[0]] + s[1..];
    }
  }

  /** A sequence in which nothing occurs twice has no repetitions. */
  lemma MultisetDistinct<T>(s: seq<T>)
    requires forall x :: x in s ==> multiset(s)[x] == 1
    ensures Distinct(s)
  {
    forall i, j | 0 <= i < j < |s| ensures s[i] != s[j] {
      TwoOccurrences(s, i, j);
    }
  }
}

=== FILE: text.dfy ===
/**
 * Text primitives the program borrows from Python's `str`: case mapping, whitespace
 * stripping and splitting, substring search, joining and integer formatting.
 */
module Text {

  /** The characters for which Python's `str.isspace()` holds. */
  predicate IsSpace(c: char) {
    || ('\t' <= c <= '\r')
    || ('\U{1C}' <= c <= '\U{1F}')
    || c == ' '
    || c == '\U{85}'
    || c == '\U{A0}'
    || c == '\U{1680}'
    || ('\U{2000}' <= c <= '\U{200A}')
    || c == '\U{2028}'
    || c == '\U{2029}'
    || c == '\U{202F}'
    || c == '\U{205F}'
    || c == '\U{3000}'
  }

  predicate AllSpace(s: string) {
    forall k :: 0 <= k < |s| ==> IsSpace(s[k])
  }

  predicate NoSpace(s: string) {
    forall k :: 0 <= k < |s| ==> !IsSpace(s[k])
  }

  /**
   * Python's `str.lower()` on one character, restricted to the letters that occur in
   * Vietnamese text: ASCII, Latin-1, the Latin Extended-A letters up to U+012F together
   * with U+0168, and the Vietnamese block U+1EA0..U+1EF9 (upper case at even code points).
   * Every other character is left as it is.
   */
  function LowerChar(c: char): char {
    if IsUpper(c) then
      if c <= '\U{DE}' then (c as int + 32) as char else (c as int + 1) as char
    else c
  }

  /** The upper-case letters `LowerChar` maps. */
  predicate IsUpper(c: char) {
    || ('A' <= c <= 'Z')
    || ('\U{C0}' <= c <= '\U{DE}' && c != '\U{D7}')
    || ('\U{100}' <= c <= '\U{12F}' && c as int % 2 == 0)
    || c == '\U{168}' || c == '\U{1A0}' || c == '\U{1AF}'
    || ('\U{1EA0}' <= c <= '\U{1EF8}' && c as int % 2 == 0)
  }

  /** Python's `str.lower()`, character by character. */
  function Lower(s: string): string {
    seq(|s|, k requires 0 <= k < |s| => LowerChar(s[k]))
  }

  /** Removes leading whitespace. */
  function StripStart(s: string): (r: string)
    ensures |r| <= |s|
  {
    if |s| > 0 && IsSpace(s[0]) then StripStart(s[1..]) else s
  }

  /** Removes trailing whitespace. */
  function StripEnd(s: string): (r: string)
    ensures |r| <= |s|
  {
    if |s| > 0 && IsSpace(s[|s| - 1]) then StripEnd(s[..|s| - 1]) else s
  }

  /** `StripStart` removes a blank prefix and nothing more. */
  lemma {:induction false} StripStartMeaning(s: string)
    ensures var r := StripStart(s);
      && |r| <= |s| && r == s[|s| - |r|..]
      && AllSpace(s[..|s| - |r|])
      && (|r| > 0 ==> !IsSpace(r[0]))
  {
    if |s| > 0 && IsSpace(s[0]) {
      StripStartMeaning(s[1..]);
      var r := StripStart(s);
      assert s[..|s| - |r|] == [s[0]] + s[1..][..|s| - 1 - |r|];
    }
  }

  /** `StripEnd` removes a blank suffix and nothing more. */
  lemma {:induction false} StripEndMeaning(s: string)
    ensures var r := StripEnd(s);
      && |r| <= |s| && r == s[..|r|]
      && AllSpace(s[|r|..])
      && (|r| > 0 ==> !IsSpace(r[|r| - 1]))
  {
    if |s| > 0 && IsSpace(s[|s| - 1]) {
      StripEndMeaning(s[..|s| - 1]);
      var r := StripEnd(s);
      assert s[|r|..] == s[..|s| - 1][|r|..] + [s[|s| - 1]];
    }
  }

  lemma AllSpaceAppend(a: string, b: string)
    requires AllSpace(a) && AllSpace(b)
    ensures AllSpace(a + b)
  {
    forall k | 0 <= k < |a + b|
      ensures IsSpace((a + b)[k])
    {
      if k < |a| {
        assert (a + b)[k] == a[k];
      } else {
        assert (a + b)[k] == b[k - |a|];
      }
    }
  }

  /** Python's `str.strip()`: removes the whitespace at both ends. */
  function Strip(s: string): string {
    StripEnd(StripStart(s))
  }

  /**
   * What `Strip` leaves: the slice of `s` between a blank prefix and a blank suffix,
   * starting and ending with a non-blank character, and empty exactly when `s` is blank.
   */
  lemma StripMeaning(s: string)
    ensures var r := Strip(s); var i := |s| - |StripStart(s)|;
      && i + |r| <= |s| && r == s[i..i + |r|]
      && AllSpace(s[..i]) && AllSpace(s[i + |r|..])
      && (|r| > 0 ==> !IsSpace(r[0]) && !IsSpace(r[|r| - 1]))
      && (r == "" <==> AllSpace(s))
  {
    StripSlice(s);
    var r := Strip(s);
    var i := |s| - |StripStart(s)|;
    if r == "" {
      assert s == s[..i] + s[i + |r|..];
      AllSpaceAppend(s[..i], s[i + |r|..]);
    } else {
      assert s[i] == r[0];
    }
  }

  /** The slice `Strip` keeps, between a blank prefix and a blank suffix. */
  lemma StripSlice(s: string)
    ensures var r := Strip(s); var i := |s| - |StripStart(s)|;
      && i + |r| <= |s| && r == s[i..i + |r|]
      && AllSpace(s[..i]) && AllSpace(s[i + |r|..])
      && (|r| > 0 ==> !IsSpace(r[0]) && !IsSpace(r[|r| - 1]))
  {
    var a := StripStart(s);
    var r := StripEnd(a);
    StripStartMeaning(s);
    StripEndMeaning(a);
    var i := |s| - |a|;
    assert r == a[..|r|];
    assert a[..|r|] == s[i..i + |r|];
    assert s[i + |r|..] == a[|r|..];
    assert |r| > 0 ==> r[0] == a[0];
  }

  lemma StripIdempotent(s: string)
    ensures Strip(Strip(s)) == Strip(s)
  {
    var r := Strip(s);
    StripMeaning(s);
    assert StripStart(r) == r;
    assert StripEnd(r) == r;
  }

  /** A text that neither starts nor ends with whitespace is already stripped. */
  lemma StripUnchanged(s: string)
    requires |s| > 0 && !IsSpace(s[0]) && !IsSpace(s[|s| - 1])
    ensures Strip(s) == s
  {
    assert StripStart(s) == s;
  }

  /** The length of the run of non-whitespace characters that starts `s`. */
  function WordLength(s: string): (n: nat)
    ensures n <= |s|
  {
    if |s| == 0 || IsSpace(s[0]) then 0 else WordLength(s[1..]) + 1
  }

  /** `WordLength` stops at the first whitespace character. */
  lemma {:induction false} WordLengthMeaning(s: string)
    ensures var n := WordLength(s);
      NoSpace(s[..n]) && (n < |s| ==> IsSpace(s[n]))
  {
    if |s| > 0 && !IsSpace(s[0]) {
      WordLengthMeaning(s[1..]);
      var m := WordLength(s[1..]);
      assert s[..m + 1] == [s[0]] + s[1..][..m];
    }
  }

  /** The characters of `s` that are not whitespace, in order. */
  function NonSpace(s: string): string {
    if |s| == 0 then ""
    else if IsSpace(s[0]) then NonSpace(s[1..])
    else [s[0]] + NonSpace(s[1..])
  }

  /** The concatenation of `parts`. */
  function Concat(parts: seq<string>): string {
    if |parts| == 0 then "" else parts[0] + Concat(parts[1..])
  }

  lemma {:induction false} NonSpaceAppend(a: string, b: string)
    ensures NonSpace(a + b) == NonSpace(a) + NonSpace(b)
    decreases |a|
  {
    if |a| > 0 {
      assert (a + b)[1..] == a[1..] + b;
      NonSpaceAppend(a[1..], b);
    } else {
      assert a + b == b;
    }
  }

  lemma {:induction false} NonSpaceOfWord(w: string)
    requires NoSpace(w)
    ensures NonSpace(w) == w
    decreases |w|
  {
    if |w| > 0 {
      NonSpaceOfWord(w[1..]);
      assert w == [w[0]] + w[1..];
    }
  }

  lemma {:induction false} NonSpaceOfSpaces(w: string)
    requires AllSpace(w)
    ensures NonSpace(w) == ""
    decreases |w|
  {
    if |w| > 0 {
      NonSpaceOfSpaces(w[1..]);
    }
  }

  predicate AllWords(r: seq<string>) {
    forall k :: 0 <= k < |r| ==> |r[k]| > 0 && NoSpace(r[k])
  }

  lemma WordsCons(w: string, rest: seq<string>)
    requires |w| > 0 && NoSpace(w) && AllWords(rest)
    ensures AllWords([w] + rest)
  {
    forall k | 0 <= k < |[w] + rest|
      ensures |([w] + rest)[k]| > 0 && NoSpace(([w] + rest)[k])
    {
      if k > 0 {
        assert ([w] + rest)[k] == rest[k - 1];
      }
    }
  }

  /** Python's `str.split()` with no separator: the maximal runs of non-whitespace. */
  function Split(s: string): seq<string>
    decreases |s|
  {
    if |s| == 0 then []
    else if IsSpace(s[0]) then Split(s[1..])
    else
      var n := WordLength(s);
      [s[..n]] + Split(s[n..])
  }

  /**
   * What `Split` yields: non-empty tokens free of whitespace that spell out exactly the
   * non-whitespace characters of `s`, and no token at all iff `s` is blank.
   */
  lemma {:induction false} SplitMeaning(s: string)
    ensures AllWords(Split(s))
    ensures Concat(Split(s)) == NonSpace(s)
    ensures |Split(s)| == 0 <==> AllSpace(s)
    decreases |s|
  {
    if |s| > 0 {
      if IsSpace(s[0]) {
        SplitMeaning(s[1..]);
        assert AllSpace(s[1..]) ==> AllSpace(s) by {
          if AllSpace(s[1..]) {
            forall k | 0 < k < |s| ensures IsSpace(s[k]) {
              assert s[k] == s[1..][k - 1];
            }
          }
        }
      } else {
        var n := WordLength(s);
        WordLengthMeaning(s);
        var w := s[..n];
        var rest := Split(s[n..]);
        SplitMeaning(s[n..]);
        assert s == w + s[n..];
        NonSpaceAppend(w, s[n..]);
        NonSpaceOfWord(w);
        assert ([w] + rest)[1..] == rest;
        WordsCons(w, rest);
      }
    }
  }

  /**
   * `split()` takes whole runs: blank text gives no token, and text made of some
   * whitespace, a word, then nothing or whitespace-led text gives the word first and
   * the split of the rest after it. Every string is blank or has that shape, so these
   * two equations fix `Split` completely.
   */
  lemma SplitRuns(a: string, w: string, b: string)
    requires AllSpace(a) && |w| > 0 && NoSpace(w) && (|b| == 0 || IsSpace(b[0]))
    ensures Split(a + w + b) == [w] + Split(b)
    ensures Split(a) == []
  {
    SplitLeadingSpace(a, w + b);
    assert a + w + b == a + (w + b);
    WordLengthOfWord(w, b);
    assert (w + b)[..|w|] == w && (w + b)[|w|..] == b;
    SplitMeaning(a);
  }

  /** Leading whitespace does not change the split. */
  lemma {:induction false} SplitLeadingSpace(a: string, s: string)
    requires AllSpace(a)
    ensures Split(a + s) == Split(s)
    decreases |a|
  {
    if |a| > 0 {
      assert (a + s)[1..] == a[1..] + s;
      SplitLeadingSpace(a[1..], s);
    } else {
      assert a + s == s;
    }
  }

  /** A word followed by nothing or by whitespace is read whole. */
  lemma {:induction false} WordLengthOfWord(w: string, b: string)
    requires NoSpace(w) && (|b| == 0 || IsSpace(b[0]))
    ensures WordLength(w + b) == |w|
    decreases |w|
  {
    if |w| > 0 {
      assert (w + b)[1..] == w[1..] + b;
      WordLengthOfWord(w[1..], b);
    } else {
      assert w + b == b;
    }
  }

  /** Python's `sub in s`: `sub` occurs in `s` as a contiguous block. */
  predicate Contains(s: string, sub: string)
    decreases |s|
  {
    sub <= s || (|s| > 0 && Contains(s[1..], sub))
  }

  /** Some word of `words` occurs in `s` (Python's `any(w in s for w in words)`). */
  predicate MentionsAny(s: string, words: seq<string>) {
    exists i :: 0 <= i < |words| && Contains(s, words[i])
  }

  /** Python's `sep.join(parts)`. */
  function Join(parts: seq<string>, sep: string): string {
    if |parts| == 0 then ""
    else if |parts| == 1 then parts[0]
    else parts[0] + sep + Join(parts[1..], sep)
  }

  function DigitChar(d: nat): (c: char)
    requires d < 10
    ensures '0' <= c <= '9'
  {
    "0123456789"[d]
  }

  /** Python's `str(n)` for a natural number: its decimal digits. */
  function NatToString(n: nat): (r: string)
    ensures |r| > 0
    ensures forall k :: 0 <= k < |r| ==> '0' <= r[k] <= '9'
    decreases n
  {
    if n < 10 then [DigitChar(n)] else NatToString(n / 10) + [DigitChar(n % 10)]
  }

  /** The number a decimal digit stands for. */
  function DigitValue(c: char): (d: nat)
    requires '0' <= c <= '9'
    ensures d < 10
  {
    c as int - '0' as int
  }

  lemma DigitRoundTrip(d: nat)
    requires d < 10
    ensures DigitValue(DigitChar(d)) == d
  {
    assert "0123456789"[d] as int == '0' as int + d;
  }

  /** Python's `int(s)` on a string of decimal digits. */
  function ParseDigits(s: string): nat
    requires forall k :: 0 <= k < |s| ==> '0' <= s[k] <= '9'
  {
    if |s| == 0 then 0 else ParseDigits(s[..|s| - 1]) * 10 + DigitValue(s[|s| - 1])
  }

  /**
   * `int(str(n)) == n`: the digits `NatToString` writes read back as `n`, and they
   * carry no leading zero unless `n` is zero.
   */
  lemma {:induction false} NatToStringRoundTrip(n: nat)
    ensures ParseDigits(NatToString(n)) == n
    ensures NatToString(n)[0] == '0' ==> n == 0
    decreases n
  {
    var r := NatToString(n);
    if n < 10 {
      DigitRoundTrip(n);
      assert r[..0] == [];
    } else {
      NatToStringRoundTrip(n / 10);
      DigitRoundTrip(n % 10);
      assert r[..|r| - 1] == NatToString(n / 10);
      assert r[0] == NatToString(n / 10)[0];
    }
  }
}

=== FILE: ui_components.dfy ===
/**
 * The pure decisions of utils/ui_components.py: the status badge of an asset, which
 * columns the results table shows and in what order, and the sidebar's counts.
 */
module UiComponents {
  import opened Wrappers
  import opened Text
  import opened Frame
  import opened Sorting

  // ---------------------------------------------------------------------------------
  // Status badge
  // ---------------------------------------------------------------------------------

  const SuccessWords := ["mới", "tốt", "new"]
  const DangerWords := ["hỏng", "lỗi", "hư"]
  const WarningWords := ["bảo hành", "sửa"]

  const BadgeClasses := {"badge-success", "badge-danger", "badge-warning", "badge-neutral"}

  /**
   * `get_status_badge(status)`: the CSS class of the badge, decided on the lower-cased
   * text of the status (a blank cell is the text "nan").
   */
  function GetStatusBadge(status: Cell): (r: string)
    ensures r in BadgeClasses
  {
    var s := Lower(AsStr(status));
    if Contains(s, "mới") || Contains(s, "tốt") || Contains(s, "new") then "badge-success"
    else if Contains(s, "hỏng") || Contains(s, "lỗi") || Contains(s, "hư") then "badge-danger"
    else if Contains(s, "bảo hành") || Contains(s, "sửa") then "badge-warning"
    else "badge-neutral"
  }

  /**
   * The badge is decided by the first group of words that the status mentions: any
   * success word wins, even beside a damage word; danger needs no success word;
   * warning needs neither; neutral is left for a status that mentions none.
   */
  lemma BadgeMeaning(status: Cell)
    ensures var s := Lower(AsStr(status)); var r := GetStatusBadge(status);
      && (r == "badge-success" <==> MentionsAny(s, SuccessWords))
      && (r == "badge-danger" <==> !MentionsAny(s, SuccessWords) && MentionsAny(s, DangerWords))
      && (r == "badge-warning" <==>
            !MentionsAny(s, SuccessWords) && !MentionsAny(s, DangerWords) && MentionsAny(s, WarningWords))
      && (r == "badge-neutral" <==>
            !MentionsAny(s, SuccessWords) && !MentionsAny(s, DangerWords) && !MentionsAny(s, WarningWords))
  {
    var s := Lower(AsStr(status));
    assert MentionsAny(s, SuccessWords) <==> Contains(s, "mới") || Contains(s, "tốt") || Contains(s, "new") by {
      if Contains(s, "mới") { assert Contains(s, SuccessWords[0]); }
      if Contains(s, "tốt") { assert Contains(s, SuccessWords[1]); }
      if Contains(s, "new") { assert Contains(s, SuccessWords[2]); }
    }
    assert MentionsAny(s, DangerWords) <==> Contains(s, "hỏng") || Contains(s, "lỗi") || Contains(s, "hư") by {
      if Contains(s, "hỏng") { assert Contains(s, DangerWords[0]); }
      if Contains(s, "lỗi") { assert Contains(s, DangerWords[1]); }
      if Contains(s, "hư") { assert Contains(s, DangerWords[2]); }
    }
    assert MentionsAny(s, WarningWords) <==> Contains(s, "bảo hành") || Contains(s, "sửa") by {
      if Contains(s, "bảo hành") { assert Contains(s, WarningWords[0]); }
      if Contains(s, "sửa") { assert Contains(s, WarningWords[1]); }
    }
  }

  // ---------------------------------------------------------------------------------
  // Results-table columns
  // ---------------------------------------------------------------------------------

  /** The columns `render_results_table` knows how to display. */
  const DisplayCols := [NameCol, SerialCol, HolderCol, StatusCol, StatusStdCol, DistrictCol, CodeCol, QuantityCol]

  /** The display order of the columns that have one. */
  const PriorityOrder := [NameCol, SerialCol, StatusCol, StatusStdCol, HolderCol, DistrictCol, QuantityCol]

  /** The rank a column without a priority sorts under. */
  const Unranked := 999

  /** `existing_cols`: the table's columns that are display columns, in table order. */
  function ExistingCols(columns: seq<string>): (r: seq<string>)
    ensures Subsequence(r, columns)
    ensures forall c :: c in r <==> c in columns && c in DisplayCols
  {
    Filter(columns, c => c in DisplayCols)
  }

  /** The position of `x` in `s`, or `|s|` when it is absent (`list.index`, without the error). */
  function IndexOf<T(==)>(s: seq<T>, x: T): (i: nat)
    ensures i <= |s| && (i < |s| <==> x in s)
    ensures i < |s| ==> s[i] == x && forall j :: 0 <= j < i ==> s[j] != x
  {
    if |s| == 0 then 0 else if s[0] == x then 0 else IndexOf(s[1..], x) + 1
  }

  /** The sort key: the position in `PriorityOrder`, or 999 for any other column. */
  function Rank(c: string): (k: nat)
    ensures c in PriorityOrder ==> k < |PriorityOrder| && PriorityOrder[k] == c
    ensures c !in PriorityOrder ==> k == Unranked
  {
    if c in PriorityOrder then IndexOf(PriorityOrder, c) else Unranked
  }

  /**
   * `final_cols` of `render_results_table`: the display columns of the table, stably
   * sorted by priority, without `Trạng Thái Chuẩn` when `Trạng thái` is also shown.
   */
  function TableColumns(columns: seq<string>): (r: seq<string>)
    ensures Subsequence(r, SortBy(ExistingCols(columns), Rank))
  {
    var sorted := SortBy(ExistingCols(columns), Rank);
    if StatusCol in sorted && StatusStdCol in sorted then RemoveFirst(sorted, StatusStdCol)
    else
      SubsequenceSelf(sorted);
      sorted
  }

  /**
   * The shown columns are ordered by priority, every priority column before every
   * other one (such as `Mã hàng hóa`); columns of equal priority keep the table's order,
   * and only the `Trạng Thái Chuẩn` class can lose a member.
   */
  lemma TableColumnsOrder(columns: seq<string>)
    ensures var r := TableColumns(columns);
      && SortedBy(r, Rank)
      && (forall i, j :: 0 <= i < |r| && 0 <= j < |r| && r[i] in PriorityOrder && r[j] !in PriorityOrder ==> i < j)
      && (forall k: nat :: k != Rank(StatusStdCol) ==> KeyClass(r, Rank, k) == KeyClass(ExistingCols(columns), Rank, k))
  {
    var existing := ExistingCols(columns);
    var sorted := SortBy(existing, Rank);
    var r := TableColumns(columns);
    SubsequenceSorted(r, sorted, Rank);
    forall k: nat | k != Rank(StatusStdCol)
      ensures KeyClass(r, Rank, k) == KeyClass(existing, Rank, k)
    {
      SortStable(existing, Rank, k);
      RemoveClass(sorted, StatusStdCol, Rank, k);
    }
    forall i, j | 0 <= i < |r| && 0 <= j < |r| && r[i] in PriorityOrder && r[j] !in PriorityOrder
      ensures i < j
    {
      assert Rank(r[j]) == Unranked && Rank(r[i]) < |PriorityOrder|;
    }
  }

  /**
   * For a table whose column names are distinct, the columns shown are exactly the
   * display columns it has, except `Trạng Thái Chuẩn` when `Trạng thái` is there too,
   * and each is shown once.
   */
  lemma TableColumnsMembers(columns: seq<string>)
    requires Distinct(columns)
    ensures var r := TableColumns(columns);
      && (forall c :: c in r <==>
            c in columns && c in DisplayCols && !(c == StatusStdCol && StatusCol in columns))
      && Distinct(r)
  {
    var existing := ExistingCols(columns);
    var sorted := SortBy(existing, Rank);
    var r := TableColumns(columns);
    SubsequenceOfDistinct(existing, columns);
    DistinctMultiset(existing);
    assert forall c :: c in sorted <==> c in existing by {
      forall c ensures c in sorted <==> c in existing {
        assert c in sorted <==> c in multiset(sorted);
        assert c in existing <==> c in multiset(existing);
      }
    }
    if StatusCol in sorted && StatusStdCol in sorted {
      assert multiset(r)[StatusStdCol] == 0;
      forall c | c != StatusStdCol ensures c in r <==> c in sorted {
        assert multiset(r)[c] == multiset(sorted)[c];
        assert c in r <==> c in multiset(r);
        assert c in sorted <==> c in multiset(sorted);
      }
    }
    MultisetDistinct(sorted);
    SubsequenceOfDistinct(r, sorted);
  }

  // ---------------------------------------------------------------------------------
  // Sidebar statistics
  // ---------------------------------------------------------------------------------

  /** The sidebar's figures: the row count and, when a status column exists, the good count. */
  datatype Stats = Stats(total: nat, good: Option<nat>)

  /** `status_col`: `Trạng thái` when the table has it, `Trạng Thái Chuẩn` otherwise. */
  function StatusColumn(columns: seq<string>): (c: string)
    ensures c == StatusCol <==> StatusCol in columns
    ensures c == StatusCol || c == StatusStdCol
  {
    if StatusCol in columns then StatusCol else StatusStdCol
  }

  /** `astype(str).str.lower().str.contains('mới|new|tốt')` on one status cell. */
  predicate GoodStatus(v: Cell) {
    var s := Lower(AsStr(v));
    Contains(s, "mới") || Contains(s, "new") || Contains(s, "tốt")
  }

  /**
   * `render_sidebar_stats`: nothing for an empty table; otherwise the row count and,
   * when the chosen status column exists, how many rows have a good status.
   */
  function SidebarStats(t: Table): (r: Option<Stats>)
    ensures r.None? <==> IsEmpty(t)
    ensures r.Some? ==> r.value.total == |t.rows| > 0
    ensures r.Some? ==> (r.value.good.Some? <==> StatusCol in t.columns || StatusStdCol in t.columns)
    ensures r.Some? && r.value.good.Some? ==> r.value.good.value <= r.value.total
  {
    if IsEmpty(t) then None
    else
      var col := StatusColumn(t.columns);
      if col in t.columns then
        Some(Stats(|t.rows|, Some(|Filter(t.rows, x => GoodStatus(Get(x, col)))|)))
      else
        Some(Stats(|t.rows|, None))
  }

  /** A good status in the sidebar is exactly one that gets the success badge. */
  lemma GoodIsSuccessBadge(v: Cell)
    ensures GoodStatus(v) <==> GetStatusBadge(v) == "badge-success"
  {
  }

  /**
   * The good count is the number of rows whose status column gets the success badge,
   * and it equals the row count exactly when every row does.
   */
  lemma GoodCountMeaning(t: Table)
    requires SidebarStats(t).Some? && SidebarStats(t).value.good.Some?
    ensures var col := StatusColumn(t.columns); var good := SidebarStats(t).value.good.value;
      && good == |Filter(t.rows, (x: Row) => GetStatusBadge(Get(x, col)) == "badge-success")|
      && (good == |t.rows| <==> forall x :: x in t.rows ==> GetStatusBadge(Get(x, col)) == "badge-success")
  {
    var col := StatusColumn(t.columns);
    var p := (x: Row) => GoodStatus(Get(x, col));
    var q := (x: Row) => GetStatusBadge(Get(x, col)) == "badge-success";
    forall x | x in t.rows ensures p(x) == q(x) {
      GoodIsSuccessBadge(Get(x, col));
    }
    FilterCongruent(t.rows, p, q);
    FilterFull(t.rows, q);
  }

  /** A filter keeps every element exactly when it keeps as many as there are. */
  lemma {:induction false} FilterFull(s: seq<Row>, p: Row -> bool)
    ensures |Filter(s, p)| == |s| <==> forall x :: x in s ==> p(x)
  {
    if |s| > 0 {
      FilterFull(s[1..], p);
      if !p(s[0]) {
        assert |Filter(s, p)| < |s|;
      }
    } else {
      assert forall x :: x in s ==> p(x);
    }
  }
}

=== FILE: wrappers.dfy ===
/** The optional value and the error-or-value outcome shared by every module of the model. */
module Wrappers {

  /** A value that may be absent: `None` is a blank (NaN) spreadsheet cell. */
  datatype Option<+T> = None | Some(value: T) {

    /** This option if it holds a value, else `other`. */
    function OrElse(other: Option<T>): Option<T> {
      if Some? then this else other
    }
  }

  /** The outcome of an operation that raises in the program: its value or the error. */
  datatype Result<+R, +E> = Success(value: R) | Failure(error: E)
}
